=== FILE: README.md ===
# tap-zendesk-chat in Dafny

A model of the replication core of tap-zendesk-chat, a Singer tap that copies
Zendesk Chat data: accounts, agents, bans, chats, departments, goals,
shortcuts and triggers. The model proves properties of that core.

What is modelled:

- **The bookmark store (`Context`).** This is a JSON state document whose
  `bookmarks` entry holds nested maps. A read (`bookmark`) creates every
  missing level as `{}`. A write (`set_bookmark`) serializes a datetime to
  ISO text. `update_start_date_bookmark` seeds a falsy bookmark from the
  configured start date.
- **Window splitting.** `break_into_intervals` cuts `[start, now)` into
  consecutive search windows of at most `days` days.
- **The per-stream strategies.**
  - since_id paging for agents and bans. Each non-empty page is written,
    the bookmark is advanced to the last id + 1, and a snapshot is flushed.
    An empty page clears the bookmark.
  - The single fetch of the account and the four "everything" endpoints.
  - Chats. This covers the full-sync decision, then a per-window search
    loop for each chat type that follows `next_url`. Each page of ids is
    fetched in bulk, and the type's timestamp bookmark is raised to the
    highest one seen.
- **The run orchestrator (`sync`).** It resumes at the stream named by
  `currently_syncing` and syncs the selected streams in the fixed order. It
  sets the marker and flushes before each stream, and clears the marker at
  the end.
- **Discovery.** This covers per-field inclusion metadata (`build_metadata`)
  and dropping the account stream on a 403 (`account_not_authorized`).

Everything the connector emits is an append-only log (`Log.Tap`). The log
holds:
- the requests it makes;
- the schema and record messages it writes;
- every state snapshot (`write_state`).

The HTTP API is an abstract collaborator (`Upstream.Upstream`) with these
parts:
- a dataset per since_id endpoint;
- a list per single-fetch endpoint;
- a scripted sequence of chat search replies;
- a document store for bulk chat fetches;
- a map of endpoints that fail with a status code.

Timestamps are integer seconds. `Values.Time(t)` is the ISO string that
denotes instant `t`.

Modules:
- `Values`: JSON values, errors, `Result` and `Option`.
- `Context`: bookmarks.
- `Intervals`: window splitting.
- `Log`: the output.
- `Upstream`: the API.
- `Paging`: since_id paging in the abstract.
- `Streams`: the stream table and the agents and bans streams.
- `SingleFetch`: the account and everything streams.
- `Chats`: the chats stream.
- `Sync`: the orchestrator.
- `Discover`: discovery.

## Model

| member | source | states |
|---|---|---|
| Context.Walk | tap_zendesk_chat/context.py:28-36 | A read of a path succeeds exactly when every level it meets is a map. It returns what the path holds, and the updated document holds the same value there. At top level the document gains at most the path's first key, and every other key keeps its value. Afterwards every key on the path, the last one included, is present in a map. |
| Context.Put | tap_zendesk_chat/context.py:38-41 | A write succeeds exactly when the path is non-empty and every level it meets is a map. At top level the document gains at most the path's first key, and every other key keeps its value. |
| Context.LookupPutSame | tap_zendesk_chat/context.py:38-41 | After a write, reading the same path returns the written value. |
| Context.LookupPutOther | tap_zendesk_chat/context.py:38-41 | A write leaves every path that parts ways with it unchanged. |
| Context.PutPut | tap_zendesk_chat/context.py:38-41 | Of two writes to the same path, the last one wins. |
| Context.WalkPreserves | tap_zendesk_chat/context.py:28-36 | The keys a read creates change nothing a later read of that path, or of a diverging path, can see. |
| Context.WalkTwice | tap_zendesk_chat/context.py:28-36 | Reading a path a second time returns the same value and creates nothing more. |
| Context.WalkAfterPut | tap_zendesk_chat/context.py:28-41 | Reading a path just written returns the written value and creates nothing. |
| Context.BookmarkPathDiverges | tap_zendesk_chat/context.py:20-36 | Two bookmark paths diverge inside the `bookmarks` map exactly when the paths themselves diverge. |
| Context.BookmarksProperty | tap_zendesk_chat/context.py:20-26 | The `bookmarks` entry is created as `{}` only when it is absent. Otherwise it is returned as is. |
| Context.Bookmark | tap_zendesk_chat/context.py:28-36 | `bookmark(path)` fails exactly when a level met is not a map. It returns the stored value and adds only the `bookmarks` key at top level. Afterwards every key of the path under `bookmarks`, the last one included, is present in a map. A read that finds a truthy value leaves the state unchanged. |
| Context.WalkFound | tap_zendesk_chat/context.py:31-35 | A read that finds a truthy value met no absent key, so it returns the document unchanged. |
| Context.SetBookmark | tap_zendesk_chat/context.py:38-41 | `set_bookmark` stores the value, with a datetime stored as its ISO text. Every diverging bookmark is left unchanged. It fails on an empty path or a non-map level. |
| Context.SetBookmarkSiblings | tap_zendesk_chat/context.py:38-41 | Bookmarks that diverge from the written path keep their values. |
| Context.BookmarkPreserves | tap_zendesk_chat/context.py:28-36 | A read through `bookmark` changes no value a later read of that path or a diverging one sees. |
| Context.BookmarkPreservesAll | tap_zendesk_chat/context.py:28-36 | After a read, every diverging bookmark is unchanged and the read path is walkable. |
| Context.SetBookmarkTwice | tap_zendesk_chat/context.py:38-41 | Of two `set_bookmark` calls on one path, the last wins. |
| Context.UpdateStartDateBookmark | tap_zendesk_chat/context.py:43-48 | A truthy stored value is returned, and the state is left unchanged. A falsy one is replaced by the start date, which is stored and returned. The returned value is always truthy and is what the path then holds. Diverging bookmarks and every other top-level key are untouched. It fails when a level met is not a map. |
| Context.UpdateStartDateIdempotent | tap_zendesk_chat/context.py:43-48 | Seeding twice returns the same value and leaves the same state as seeding once. |
| Intervals.Delta | tap_zendesk_chat/utils.py:19 | A window of a positive number of days is at least one day long. |
| Intervals.BreakIntoIntervals | tap_zendesk_chat/utils.py:18-24 | Any `days` is accepted when `start >= now`, and there are no windows exactly then. Otherwise the first window starts at `start` and the last ends at `now`. Each window is non-empty and at most `days` days long, and each starts where the previous one ended. |
| Intervals.Split | tap_zendesk_chat/utils.py:21-24 | The same facts for the generator's loop with a window length in seconds. |
| Intervals.SplitOrdered | tap_zendesk_chat/utils.py:21-24 | A later window starts no earlier than any earlier window ends. |
| Intervals.SplitCovers | tap_zendesk_chat/utils.py:21-24 | Every instant of `[start, now)` lies in some window. |
| Intervals.SplitPartition | tap_zendesk_chat/utils.py:21-24 | Every instant of `[start, now)` lies in exactly one window. |
| Intervals.SplitCount | tap_zendesk_chat/utils.py:21-24 | The number of windows is the span divided by the window length, rounded up. |
| Intervals.ThirtyDayExample | tests/unittests/test_utils.py:64-72 | 30-day windows from 2018-01-02T18:14:33 to 2018-02-14T10:30:20 are exactly the two windows the unit test expects. |
| Log.StreamStepJoin | tap_zendesk_chat/sync.py:26-30 | A stream's step appends only requests, that stream's records and snapshots that keep the marker. Two such steps compose into one. |
| Log.LastStateMarker | tap_zendesk_chat/sync.py:26-30 | If every snapshot after a point carries marker `m`, and so does the last one before it, the last snapshot of all carries `m`. |
| Log.EmittedAppend | tap_zendesk_chat/streams.py:36-40 | The records written to a stream over two stretches of output are those of the first followed by those of the second. |
| Log.EmittedOwned | tap_zendesk_chat/sync.py:26-30 | While one stream syncs, no other stream's records are written. |
| Log.PagesOfAppend | tap_zendesk_chat/streams.py:36-40 | The pages written over two stretches of output are those of the first followed by those of the second. |
| Upstream.AboveMembers | tap_zendesk_chat/streams.py:55-60 | A since_id request can serve exactly the dataset's records with `id >= since_id`. |
| Upstream.FirstAboveIsTake | tap_zendesk_chat/streams.py:55-60 | A since_id page is the first `limit` of those records. |
| Upstream.AboveIsSuffix | tap_zendesk_chat/streams.py:55-60 | On an ascending dataset, what a since_id selects is a suffix of the dataset. |
| Upstream.NextSince | tap_zendesk_chat/streams.py:64-65 | Asking again from the last served id + 1 resumes right after the served records. |
| Upstream.AgentsPage | tap_zendesk_chat/streams.py:54-60 | The agents request succeeds exactly when the endpoint works and since_id is a number. |
| Upstream.BansPage | tap_zendesk_chat/streams.py:183-188 | The bans request succeeds exactly when the endpoint works and since_id is a number. Both lists are then present. |
| Upstream.BulkDocs | tap_zendesk_chat/streams.py:77-79 | A bulk fetch fails exactly when the chats endpoint is down or it asks for a chat whose fetch fails, independently of the search before it. Otherwise it returns no more chats than ids asked for, and only stored chats. |
| Paging.PagesEnd | tap_zendesk_chat/streams.py:53-62 | Paging stops at the first empty page. |
| Paging.PagesNext | tap_zendesk_chat/streams.py:53-66 | A non-empty page is followed by the paging from its last id + 1. |
| Paging.PagesNonEmpty | tap_zendesk_chat/streams.py:59-63 | No page written is empty. |
| Paging.PagesAbove | tap_zendesk_chat/streams.py:53-66 | Against an honest server, every record written is at or above the starting since_id. |
| Paging.ServedPrefix | tap_zendesk_chat/streams.py:53-66 | The pages served so far, followed by the paging from where they stopped, are the whole paging. |
| Paging.ServedAll | tap_zendesk_chat/streams.py:53-62 | Pages served up to an empty answer are the whole paging. |
| Streams.SinceOf | tap_zendesk_chat/streams.py:53 | `bookmark or 0`: a truthy bookmark is kept and a falsy one becomes 0. |
| Streams.BansPageOf | tap_zendesk_chat/streams.py:189 | A bans page holds exactly the visitor bans and the ip-address bans, with an absent list read as empty. |
| Streams.BansMissingVisitorKey | tap_zendesk_chat/streams.py:189-192 | A reply that has ip-address bans but no `visitor` key makes the code as written fail with KeyError. The corrected page holds the ip-address ban. |
| Streams.BansPageAgrees | tap_zendesk_chat/streams.py:189-192 | Whenever the page as written is defined, it equals the corrected page. |
| Streams.OffsetPage | tap_zendesk_chat/streams.py:183-192 | A successful since_id request has a numeric since_id and yields the page the dataset serves for it. |
| Streams.RemainingShrinks | tap_zendesk_chat/streams.py:64 | Moving since_id past a served record strictly shrinks what is left, so paging terminates. |
| Streams.ServeProgresses | tap_zendesk_chat/streams.py:53-66 | since_id paging against either endpoint terminates on every dataset. |
| Streams.OffsetPagesNonEmpty | tap_zendesk_chat/streams.py:59-63 | Every page written is non-empty. |
| Streams.OffsetPagesAbove | tap_zendesk_chat/streams.py:53-66 | Every record written is at or above the starting since_id. |
| Streams.AgentsPagesAreChunks | tap_zendesk_chat/streams.py:53-66 | On an ascending dataset with a positive limit, the agents pages are the records from since_id on, cut into consecutive chunks of `limit`. |
| Streams.AgentsPagesCover | tap_zendesk_chat/streams.py:53-66 | The agents pages together are exactly the records from since_id on, in order, each once. |
| Streams.AgentsPagesDisjoint | tap_zendesk_chat/streams.py:53-66 | Every agents page lies strictly below every later page, so no record is written twice. |
| Streams.BansPagingSkips | tap_zendesk_chat/streams.py:180-196 | With visitor bans 1 and 2, ip-address ban 10 and a limit of 1, the bans loop writes the single page `[1, 10]`, so visitor ban 2 is never written. |
| Streams.FlattenChunks | tap_zendesk_chat/streams.py:53-66 | The chunks of a sequence, joined, give back the sequence. |
| Streams.ChunksDisjoint | tap_zendesk_chat/streams.py:53-66 | The chunks of an ascending sequence are strictly ordered. |
| Streams.Checkpoint | tap_zendesk_chat/streams.py:65-66 | `set_bookmark` plus `write_state` stores the value, flushes one snapshot, and changes no other bookmark. |
| Streams.LogPage | tap_zendesk_chat/streams.py:57-66 | One page of output is a request, the page, and a snapshot whose bookmark is the page's last id + 1. |
| Streams.OffsetStep | tap_zendesk_chat/streams.py:57-66 | One loop turn fails exactly when its request fails. On an empty page it writes nothing. Otherwise it writes the page and checkpoints the next since_id. |
| Streams.PageStep | tap_zendesk_chat/streams.py:56-66 | One loop turn extends the pages written so far by the next page of the reference paging, or ends on an empty page. |
| Streams.PageAll | tap_zendesk_chat/streams.py:56-66 | The loop writes exactly the reference paging's pages, each followed by its checkpoint. |
| Streams.SyncFrom | tap_zendesk_chat/streams.py:56-68 | Paging from since_id writes exactly the reference pages. The bookmark is then cleared to `None` and flushed. |
| Streams.SyncOffset | tap_zendesk_chat/streams.py:50-68 | `Agents.sync` and `Bans.sync` keep to their own stream and leave the marker alone. Every page is followed by a checkpoint of its last id + 1. On success the pages are the reference paging from the stored since_id, or from 0, and the run ends with the bookmark cleared and flushed. |
| SingleFetch.FetchAndWrite | tap_zendesk_chat/streams.py:43-47 | The call fails exactly when the reply is an error, with that error. On success the reply's records are appended to the stream's output. No snapshot is written and the state is unchanged. |
| SingleFetch.SyncEverything | tap_zendesk_chat/streams.py:43-47 | `Everything.sync` writes the endpoint's whole list as one page. It fails exactly when the endpoint fails, and writes no state. |
| SingleFetch.SyncAccount | tap_zendesk_chat/streams.py:201-207 | `Account.sync` writes the single account object as a page of one. It fails exactly when the endpoint fails, and writes no state. |
| Chats.KeysApart | tap_zendesk_chat/streams.py:98-99 | The timestamp and next_url bookmarks of both chat types are four distinct, non-overlapping paths. |
| Chats.ParseTime | tap_zendesk_chat/streams.py:142 | Parsing succeeds exactly on a timestamp. |
| Chats.ShouldRunFullSync | tap_zendesk_chat/streams.py:135-150 | The setting `chats_full_sync_days` is tested for truthiness before it is converted. There is no full sync when it is falsy: absent, 0 or the empty string. A full sync runs when none is on record, whatever the setting holds. Otherwise it runs exactly when the last one is at least `int(setting)` days old. An unparseable record fails first, and then a setting `int` rejects fails with that error. |
| Chats.FullSyncFallsDue | tap_zendesk_chat/streams.py:135-150 | After a full sync stamps `now`, the next one is due exactly `int(setting)` days later. |
| Chats.ZeroStringAlwaysFull | tap_zendesk_chat/streams.py:137-143 | The setting `"0"` is truthy and converts to 0 days, so every run whose recorded stamp is not in the future is a full sync. |
| Values.IntOf | tap_zendesk_chat/streams.py:142 | `int` of the setting: an integer is itself, a decimal numeral with an optional minus sign converts to the number its digits spell, leading zeros included, and any other string, an ISO timestamp included, raises ValueError. `None` and a dict raise TypeError. |
| Values.IntOfDecimal | tap_zendesk_chat/streams.py:142 | `int` of the decimal rendering of any integer, negative ones included, gives that integer back. |
| Chats.Highest | tap_zendesk_chat/streams.py:129 | The running maximum fails exactly when a chat lacks the timestamp field. Otherwise it bounds every chat's timestamp and the previous maximum, and it is one of them. |
| Chats.HighestConcat | tap_zendesk_chat/streams.py:115-129 | The running maximum over two batches is the maximum of the second batch started from the first batch's maximum. |
| Chats.RisingPairs | tap_zendesk_chat/streams.py:129-133 | In a rising trail of timestamp bookmarks, every later value is at least every earlier one. |
| Chats.RisingJoin | tap_zendesk_chat/streams.py:115-133 | Two rising trails that meet at a common value join into one rising trail. |
| Chats.PullStart | tap_zendesk_chat/streams.py:98-105 | A full sync starts from the configured start date with no next_url. Otherwise the run starts from the stored timestamp, or from the start date when none is stored, and resumes the stored next_url. Either way the timestamp bookmark then holds the start. The other chat type's bookmarks, the full-sync record and the marker are untouched. A truthy stored timestamp that does not parse is an error. |
| Chats.Forget | tap_zendesk_chat/streams.py:100-102 | A full sync clears this type's timestamp and next_url bookmarks and touches nothing the other type or the marker reads. |
| Chats.SeedStart | tap_zendesk_chat/streams.py:103 | The start time is the stored timestamp when it is truthy, else the configured start date, which is then stored. The next_url bookmark and the other type are untouched. |
| Chats.ReadUrl | tap_zendesk_chat/streams.py:104 | The next_url read is the stored one, and reading it changes neither bookmark of the type. |
| Chats.SaveUrl | tap_zendesk_chat/streams.py:121-123 | Storing the reply's next_url flushes exactly one snapshot, leaves the timestamp bookmark, and writes no records. |
| Chats.Ask | tap_zendesk_chat/streams.py:117-123 | A stored next_url is followed, and otherwise the window is searched. A failed request stops the run with its error. On success the reply's next_url is stored and flushed, and no records are written. The reply script shrinks whenever the new next_url is truthy, so the loop terminates. |
| Chats.BulkChats | tap_zendesk_chat/streams.py:74-79 | No request is made for an empty id list. Otherwise one bulk request is made. It fails exactly when the bulk fetch fails, and otherwise returns no more chats than ids, all of them stored chats. |
| Chats.Fetch | tap_zendesk_chat/streams.py:124-129 | Written chats are appended to the stream's output, and the running maximum is raised over them. |
| Chats.ProgressJoin | tap_zendesk_chat/streams.py:115-133 | Two stretches of a pull compose: their output, pages, maxima and bookmark trails concatenate. |
| Chats.SearchStep | tap_zendesk_chat/streams.py:116-131 | One search turn extends the pull by one snapshot and one page. |
| Chats.SaveTs | tap_zendesk_chat/streams.py:132-133 | The timestamp bookmark is set to the given maximum and flushed. The next_url bookmark is unchanged and no records are written. |
| Chats.CloseWindow | tap_zendesk_chat/streams.py:132-133 | At a window's end, the timestamp bookmark is set to the running maximum and flushed, and the trail stays rising. |
| Chats.PullWindow | tap_zendesk_chat/streams.py:116-133 | A window's loop ends with no next_url stored and with the timestamp bookmark at the running maximum. Every bookmark value flushed in between is no lower than the last. |
| Chats.PullWindows | tap_zendesk_chat/streams.py:113-133 | Across all windows the timestamp bookmark only rises, and it ends at the running maximum. |
| Chats.Pull | tap_zendesk_chat/streams.py:85-133 | A failing start writes nothing. Otherwise `_pull` first searches the first window, with the stored next_url unless it is a full sync. It writes only chats, appended to the stream's output. It ends with the timestamp bookmark at the maximum of the start and every written chat's timestamp, and no next_url stored. The other type's bookmarks are untouched. The bookmark trail never goes down. |
| Chats.StampKeeps | tap_zendesk_chat/streams.py:170-172 | Recording the full-sync time changes no bookmark and not the marker. |
| Chats.PullBoth | tap_zendesk_chat/streams.py:154-171 | Both chat types are pulled in turn. Each one's chats are bounded by its stored timestamp bookmark, and the full-sync record is unchanged. |
| Chats.Stamp | tap_zendesk_chat/streams.py:170-172 | `chats_last_full_sync` is set to now and flushed, with no bookmark changed. |
| Chats.SyncChats | tap_zendesk_chat/streams.py:152-174 | `Chats.sync` stops before writing anything when the full-sync decision fails. Otherwise it writes the chats, then the offline messages, each bounded by its bookmark. After a full sync the stamp is now and is flushed last. Otherwise the stamp is unchanged. |
| Sync.IndexOf | tap_zendesk_chat/sync.py:20 | `list.index` finds the first position of the value, and raises ValueError exactly when the value is absent. |
| Sync.StartIndex | tap_zendesk_chat/sync.py:19-21 | The resume index is 0 when `currently_syncing` is falsy. Otherwise it is the position of the named stream in the fixed order, and ValueError when no stream has that id. |
| Sync.StartIndexAsWritten | tap_zendesk_chat/sync.py:19-21 | As written, any truthy marker raises AttributeError. |
| Sync.ResumeFailsAsWritten | tap_zendesk_chat/sync.py:19-21 | A state left with `currently_syncing = "chats"` cannot be resumed as written, while the intended lookup resumes at index 3. |
| Sync.Keep | tap_zendesk_chat/sync.py:24-25 | The filter keeps exactly the streams whose id is selected. |
| Sync.KeepOrdered | tap_zendesk_chat/sync.py:24-25 | The filter keeps the fixed order. |
| Sync.ToSyncExact | tap_zendesk_chat/sync.py:22-25 | A run syncs exactly the selected streams from the resume index on, as a subsequence of the fixed order. |
| Sync.SkippedNeverSynced | tap_zendesk_chat/sync.py:19-25 | A stream before the resume index is not synced in that run, even when selected. |
| Sync.ResumeAt | tap_zendesk_chat/sync.py:19-25 | A state whose marker names stream `k` resumes at `k`, and that run syncs stream `k` first if it is still selected. |
| Sync.SchemasOwned | tap_zendesk_chat/sync.py:26-30 | A stream's own sync writes no schema message. |
| Sync.OwnedAttributed | tap_zendesk_chat/sync.py:26-30 | Every record a stream writes comes after a snapshot naming that stream. |
| Sync.SyncOne | tap_zendesk_chat/sync.py:30 | Dispatch to the stream's strategy: it appends only that stream's output and leaves the marker alone. A non-positive chat search interval is refused only when the chats stream is to be synced. |
| Sync.SyncStream | tap_zendesk_chat/sync.py:26-30 | One loop turn marks the stream, writes its schema and a snapshot, then syncs it. No other stream's records change, and the last snapshot names the stream, whether or not its sync fails. A non-positive chat search interval is refused only when the chats stream is to be synced. |
| Sync.PartialStep | tap_zendesk_chat/sync.py:26-30 | One more stream extends the schemas written by its id and leaves other streams' records alone. |
| Sync.Finish | tap_zendesk_chat/sync.py:31-32 | After the last stream, the marker is `None` and a final snapshot is written. |
| Sync.RunPlan | tap_zendesk_chat/sync.py:26-32 | The loop writes one schema per planned stream, in order, each followed at once by a snapshot naming it. Every record is written under a snapshot naming its stream, and unplanned streams write nothing. On success the marker ends `None` in a final snapshot. On failure the last snapshot names the failing stream. A non-positive chat search interval is refused only when the chats stream is to be synced. |
| Sync.Sync | tap_zendesk_chat/sync.py:18-32 | `sync` stops before writing anything when the resume index fails. Otherwise it runs the plan of selected streams from the resume index with the guarantees above. After a failure, the last snapshot resumes the next run at the stream it names, and that run syncs it first. A non-positive chat search interval is refused only when the chats stream is to be synced. |
| Sync.ResumeAfterFailure | tap_zendesk_chat/sync.py:19-30 | When the last snapshot names the plan entry a run stopped in, as a failed run guarantees, the next run resumes at that stream and syncs it first. |
| Discover.BuildMetadata | tap_zendesk_chat/discover.py:30-40 | The stream entry carries the replication keys, key properties and forced method. Every property gets exactly one entry, and no other entries exist. A property is automatic exactly when it is a replication or key property. |
| Discover.AutomaticFieldsAre | tap_zendesk_chat/discover.py:35-39 | The automatic fields are the schema's properties that are keys or replication keys. |
| Discover.ChatsAutomaticFields | tests/base.py:111-115 | Chats' automatic fields are `id`, `timestamp` and `end_timestamp`. |
| Discover.OtherAutomaticFields | tests/base.py:111-115 | Every other stream's automatic fields are exactly its primary key. |
| Discover.AccountNotAuthorized | tap_zendesk_chat/discover.py:13-27 | The probe returns true exactly on a 403 and false exactly on success. Any other error is raised again. |
| Discover.Drop | tap_zendesk_chat/discover.py:49 | Removing a stream by id keeps exactly the other streams. |
| Discover.DropOrdered | tap_zendesk_chat/discover.py:49-51 | Removing a stream keeps the others in order. |
| Discover.DiscoveredStreams | tap_zendesk_chat/discover.py:45-51 | With a configuration, a failing chats probe or a non-403 account error ends discovery. The catalog lists every stream in table order, and leaves out `account` exactly when its probe answered 403. |
| Discover.CatalogOf | tap_zendesk_chat/discover.py:50-60 | Each listed stream gets the metadata built from its schema. |
| Discover.Discover | tap_zendesk_chat/discover.py:43-61 | `discover` fails exactly when the stream list does. Its catalog lists those streams, each with its metadata. |

## Left out

- I/O is not modelled: Singer message writing, the metrics counters and logging. Emission is an append-only log of requests, schema messages, record pages and state snapshots.
- The schema content is not modelled. `output_schema` appears only as a schema message naming the stream, and `load_schema` file loading and `$ref` resolution are out. Discovery takes the property names of each schema as a parameter.
- `Transformer.transform` is not modelled. Records pass through unchanged, and only their id and timestamp fields are modelled.
- The HTTP transport (`http.py`) is not modelled: retries on 429 and 502, back-off, and authentication. A request either answers or fails with an HTTP status, and the failing endpoints are part of the `Upstream` value.
- Date parsing and formatting are not modelled. Every timestamp is an integer number of seconds, and `isoformat` is the `Time` constructor. `_pull` compares a start-time string with record values (tap_zendesk_chat/streams.py:105, 129); the model uses one ordered type throughout.
- `ctx.now` is a parameter `now`.
- Chat ids are integers. The `",".join` of the bulk request and the order of `docs` values are not modelled: found chats come back in request order.
- A search reply or bulk reply without its `next_url`, `results` or `docs` key is not modelled. Its KeyError is out: every reply carries all of its keys.
- Chats.Pull: `chat_search_interval_days` must be positive. Take a start before `now`. With 0, `break_into_intervals` never advances and the run never ends. With a negative value, `end_dt = min(start_dt + delta, now)` lies before `start_dt` (tap_zendesk_chat/utils.py:22-24), so each window runs backwards. The loop then walks back in time, and `_pull` searches each reversed window and flushes state (tap_zendesk_chat/streams.py:115-133). It goes on until `start_dt + delta` falls below the earliest representable datetime and raises OverflowError. Neither run is modelled, so `Chats.Pull`, `Chats.PullBoth` and `Chats.SyncChats` require a positive value. `Intervals.BreakIntoIntervals` requires it only when `start < now`. The `Sync` members require it only when the chats stream is to be synced (`Sync.Runnable`), since no other stream reads the setting.
- Chats.IntervalDays: a non-numeric `chat_search_interval_days` (a ValueError from `int`) is not modelled: that setting is an optional integer. It is read with `is not None` and converted at once (tap_zendesk_chat/streams.py:108-110), so a numeric string behaves exactly like the integer it spells, and only the ValueError is lost. `chats_full_sync_days`, which is tested for truthiness first, is a JSON value (`Values.IntOf`).
- Sync.SyncOne: the stream methods take four arguments, but tap_zendesk_chat/sync.py:30 calls `stream.sync(ctx)`, which would raise TypeError. The model calls each strategy with its real arguments. The schema, stream metadata and transformer are not modelled.
- tap_zendesk_chat/__init__.py, which covers argument parsing and calling `sync(ctx, catalog)` with an argument `sync` does not take, is not part of this model.
- Discover.Discover: `STREAMS.pop("account")` mutates a module-level table. After a 403 has removed the account stream, a second discovery in the same process raises KeyError: `account_not_authorized` looks up `STREAMS["account"]` (tap_zendesk_chat/discover.py:17), and the `except HTTPError` at line 18 does not catch it. A sync run given no catalog discovers twice (tap_zendesk_chat/__init__.py:22-23). The model computes each catalog afresh from the full stream table, so this failure is not modelled.
- Values.IntOf: Python's `int` also accepts surrounding whitespace, a `+` sign and underscores between digits, and it truncates a float. These forms are not modelled: such a string raises ValueError in the model, and floats are not values of the model.
- Discover.BuildMetadata: the order of `metadata.to_list` is not modelled. Metadata is a map from breadcrumb to entry, and the replication keys are a set, as the Python set they come from is.
- tests/unittests/test_context.py:47-48 expects `set_bookmark` to leave an existing value alone. tap_zendesk_chat/context.py:41 overwrites it, and the model follows the code (`Context.SetBookmarkTwice`, `Context.LookupPutSame`).
- Streams.SyncOffset: full coverage and disjointness of the pages (`Streams.AgentsPagesCover`, `Streams.AgentsPagesDisjoint`) are proved for agents only. A bans page joins two lists, so its last id need not be its highest, and the since_id after it can skip or repeat bans (`Streams.BansPagingSkips` gives an input that skips one). Whether the API pages both lists by one since_id is not in the source, so this is not claimed as a defect.
- Upstream.AgentsPage: a since_id that is not a number, such as a stored bookmark of another type, is assumed to be answered with HTTP 400. The same holds for `Upstream.BansPage`. The source sends such a value unchecked, and what the API answers is not in the source. The numeric-since_id clauses of `Streams.SyncOffset` and `Streams.SyncFrom` rest on this assumption.
- Chats.Pull: the contract does not promise that every chat a search finds is written. The source stores and flushes the reply's next_url (tap_zendesk_chat/streams.py:121-123) before the bulk fetch (line 125). So when a bulk fetch fails, the last snapshot resumes after that page, and its chats are never written. The model keeps this order; `Upstream.BulkDocs` can fail after a successful search.
- Chats.Ask: a stored next_url and a fresh search draw on the same script of replies. The URL's content does not select the reply.
- The `Highest` stream maximum starts from the stored bookmark instant, not from a string. See the date-parsing line above.
- The unit tests, the tap-tester suites, `create-offline-messages.py` and `setup.py` are not modelled; a few tests are cited as the source of a property.

## Findings

| source | as written | input that shows it | evidently intended | confidence | as-written member | corrected member |
|---|---|---|---|---|---|---|
| tap_zendesk_chat/streams.py:189-192 | The emptiness test reads both lists with defaults, but the page is then rebuilt with `response["visitor"] + response["ip_address"]`. | A bans reply `{"ip_address": [ban]}` with no `visitor` key raises KeyError. | Build the page from the defaulted lists, which are already computed. | not executed | Streams.BansPageAsWritten, Streams.BansMissingVisitorKey | Streams.BansPageOf, Streams.BansPageAgrees |
| tap_zendesk_chat/sync.py:20 | The resume index reads `streams_.all_stream_ids`, which tap_zendesk_chat/streams.py never defines. | A state with `currently_syncing = "chats"` raises AttributeError, so an interrupted run can never resume. | The position of the marked stream in `all_streams` order. | not executed | Sync.StartIndexAsWritten, Sync.ResumeFailsAsWritten | Sync.StartIndex, Sync.ResumeAt |

=== FILE: chats.dfy ===
/** The chats stream (`Chats`): per chat type, a windowed search over
    `[start, now)` whose pages are followed through `next_url`, each page of
    ids bulk-fetched and written, with a resumable `next_url` bookmark and a
    running-maximum timestamp bookmark; plus the periodic full re-sync. */
module Chats {
  import opened Values
  import opened Context
  import opened Log
  import opened Upstream
  import opened Intervals

  const ChatsId: string := "chats"

  /** The state key outside `bookmarks` that stamps the last full sync. */
  const LastFullSyncKey: string := "chats_last_full_sync"

  /** The window length used when `chat_search_interval_days` is unset. */
  const DefaultIntervalDays: int := 14

  /** The two kinds of chat pulled, each bookmarked by its own timestamp. */
  datatype ChatType = Chat | OfflineMsg

  function TypeName(ct: ChatType): string {
    match ct
    case Chat => "chat"
    case OfflineMsg => "offline_msg"
  }

  function TsField(ct: ChatType): string {
    match ct
    case Chat => "end_timestamp"
    case OfflineMsg => "timestamp"
  }

  function Other(ct: ChatType): ChatType {
    match ct
    case Chat => OfflineMsg
    case OfflineMsg => Chat
  }

  /** `["chats", "<type>.<ts_field>"]`: the running-maximum timestamp. */
  function TsKey(ct: ChatType): seq<string> {
    [ChatsId, TypeName(ct) + "." + TsField(ct)]
  }

  /** `["chats", "offset", "<type>.next_url"]`: the page to resume from. */
  function UrlKey(ct: ChatType): seq<string> {
    [ChatsId, "offset", TypeName(ct) + ".next_url"]
  }

  /** The four bookmark paths of the stream are pairwise apart, so writing
      one never disturbs another. */
  lemma KeysApart(ct: ChatType)
    ensures Diverges(TsKey(ct), UrlKey(ct)) && Diverges(UrlKey(ct), TsKey(ct))
    ensures Diverges(TsKey(Other(ct)), TsKey(ct)) && Diverges(TsKey(Other(ct)), UrlKey(ct))
    ensures Diverges(UrlKey(Other(ct)), TsKey(ct)) && Diverges(UrlKey(Other(ct)), UrlKey(ct))
  {
    var a, b, c, d := TsKey(ct), UrlKey(ct), TsKey(Other(ct)), UrlKey(Other(ct));
    assert a[1..][0] != b[1..][0] && b[1..][0] != a[1..][0];
    assert |c[1..][0]| != |a[1..][0]| && c[1..][0] != b[1..][0];
    assert d[1..][0] != a[1..][0] && d[1..][1..][0] != b[1..][1..][0];
  }

  /** `state.get(key)`. */
  function StateGet(s: State, k: string): Value {
    if k in s then s[k] else Null
  }

  /** `chat_search_interval_days`, 14 when unset. */
  function IntervalDays(cfg: Config): int {
    cfg.chatSearchIntervalDays.GetOr(DefaultIntervalDays)
  }

  /** `strptime_to_utc` on a stored value: an ISO timestamp parses, any other
      string is rejected, and a non-string is a type error. */
  function ParseTime(v: Value): (r: Result<int>)
    ensures r.Ok? <==> v.Time?
    ensures r.Ok? ==> v == Time(r.value)
  {
    match v
    case Time(t) => Ok(t)
    case Str(_) => Err(ValueError)
    case _ => Err(TypeError)
  }

  // ---------------------------------------------------------------------
  // The full re-sync decision

  /** `_should_run_full_sync`: never when `chats_full_sync_days` is falsy
      (absent, 0 or ""); always when no full sync is on record; otherwise once
      the recorded one is at least `int(chats_full_sync_days)` days old. The
      setting is tested before it is converted, so the string "0" is truthy. */
  function ShouldRunFullSync(cfg: Config, s: State, now: int): (r: Result<bool>)
    ensures !Truthy(cfg.chatsFullSyncDays) ==> r == Ok(false)
    ensures Truthy(cfg.chatsFullSyncDays) ==>
      var last := StateGet(s, LastFullSyncKey);
      var days := IntOf(cfg.chatsFullSyncDays);
      && (!Truthy(last) ==> r == Ok(true))
      && (Truthy(last) ==> (r.Ok? <==> last.Time? && days.Ok?))
      && (Truthy(last) && !last.Time? ==> r == Err(ParseTime(last).error))
      && (Truthy(last) && last.Time? && days.Err? ==> r == Err(days.error))
      && (r.Ok? && Truthy(last) ==> (r.value <==> last.t + days.value * SecondsPerDay <= now))
  {
    var setting := cfg.chatsFullSyncDays;
    if !Truthy(setting) then Ok(false)
    else
      var last := StateGet(s, LastFullSyncKey);
      if !Truthy(last) then Ok(true)
      else
        match ParseTime(last)
        case Err(e) => Err(e)
        case Ok(t) =>
          match IntOf(setting)
          case Err(e) => Err(e)
          case Ok(days) => Ok(t + days * SecondsPerDay <= now)
  }

  /** After a full sync stamps the state at `now`, the next one falls due
      exactly `days` days later, and not a second before. */
  lemma FullSyncFallsDue(cfg: Config, s: State, now: int, later: int)
    requires Truthy(cfg.chatsFullSyncDays) && IntOf(cfg.chatsFullSyncDays).Ok?
    ensures ShouldRunFullSync(cfg, s[LastFullSyncKey := Time(now)], later)
            == Ok(later >= now + IntOf(cfg.chatsFullSyncDays).value * SecondsPerDay)
  {
  }

  /** The string "0" is truthy and converts to 0 days, so a full sync runs
      on every run whose recorded stamp is not in the future. */
  lemma ZeroStringAlwaysFull(cfg: Config, s: State, now: int)
    requires cfg.chatsFullSyncDays == Str("0")
    requires !Truthy(StateGet(s, LastFullSyncKey))
      || (StateGet(s, LastFullSyncKey).Time? && StateGet(s, LastFullSyncKey).t <= now)
    ensures ShouldRunFullSync(cfg, s, now) == Ok(true)
  {
  }

  // ---------------------------------------------------------------------
  // The running maximum

  /** `max(m, *[c[field] for c in recs])`: a record without the field is a
      `KeyError`. */
  function Highest(m: int, recs: seq<Record>, field: string): (r: Result<int>)
    ensures r.Ok? <==> forall x :: x in recs ==> field in x.stamps
    ensures r.Ok? ==> m <= r.value && forall x :: x in recs ==> x.stamps[field] <= r.value
    ensures r.Ok? ==> r.value == m || exists x :: x in recs && x.stamps[field] == r.value
    decreases |recs|
  {
    if recs == [] then Ok(m)
    else if field !in recs[0].stamps then Err(KeyError)
    else
      var r := Highest(Max(m, recs[0].stamps[field]), recs[1..], field);
      assert forall x :: x in recs ==> x == recs[0] || x in recs[1..];
      r
  }

  /** The maximum over a concatenation is the maximum over the second part
      starting from the maximum over the first: keeping a running maximum
      page by page gives the maximum over everything written. */
  lemma {:induction false} HighestConcat(m: int, a: seq<Record>, b: seq<Record>, field: string)
    ensures Highest(m, a + b, field)
            == (match Highest(m, a, field) case Ok(m') => Highest(m', b, field) case Err(e) => Err(e))
    decreases |a|
  {
    if a != [] {
      assert (a + b)[0] == a[0] && (a + b)[1..] == a[1..] + b;
      if field in a[0].stamps {
        HighestConcat(Max(m, a[0].stamps[field]), a[1..], b, field);
      }
    } else {
      assert a + b == b;
    }
  }

  // ---------------------------------------------------------------------
  // Snapshots of one bookmark

  /** The value at bookmark `path` in each snapshot of a log, in order. */
  function Trail(log: seq<Event>, path: seq<string>): seq<Value> {
    if log == [] then []
    else
      Trail(log[..|log| - 1], path)
      + (if Last(log).StateOut? then [GetBookmark(Last(log).state, path)] else [])
  }

  /** Timestamps that never go down. */
  predicate Rising(xs: seq<Value>)
    decreases |xs|
  {
    xs == [] ||
      (&& Rising(xs[..|xs| - 1])
       && Last(xs).Time?
       && (|xs| == 1 || (xs[|xs| - 2].Time? && xs[|xs| - 2].t <= Last(xs).t)))
  }

  /** Rising means every later timestamp is at least every earlier one. */
  lemma {:induction false} RisingPairs(xs: seq<Value>, i: int, j: int)
    requires Rising(xs) && 0 <= i <= j < |xs|
    ensures xs[i].Time? && xs[j].Time? && xs[i].t <= xs[j].t
    decreases |xs|
  {
    var init := xs[..|xs| - 1];
    if j < |xs| - 1 {
      RisingPairs(init, i, j);
    } else if i < j {
      RisingPairs(init, i, j - 1);
    }
  }

  lemma RisingOne(v: Value)
    requires v.Time?
    ensures Rising([v])
  {
    var xs := [v];
    assert xs[..|xs| - 1] == [] && Rising([]);
  }

  lemma RisingSnoc(xs: seq<Value>, v: Value)
    requires Rising(xs) && v.Time? && (xs != [] ==> Last(xs).t <= v.t)
    ensures Rising(xs + [v])
  {
    assert (xs + [v])[..|xs|] == xs;
  }

  /** Two rising runs, the second starting where the first ends, rise
      together. */
  lemma {:induction false} RisingJoin(a: seq<Value>, b: seq<Value>)
    requires a != [] && Rising(a) && Rising([Last(a)] + b)
    ensures Rising(a + b) && Last(a + b) == Last([Last(a)] + b)
    decreases |b|
  {
    if b == [] {
      assert a + b == a;
    } else {
      var b' := b[..|b| - 1];
      assert ([Last(a)] + b)[..|b|] == [Last(a)] + b';
      RisingJoin(a, b');
      assert a + b == (a + b') + [Last(b)];
      RisingSnoc(a + b', Last(b));
    }
  }

  // ---------------------------------------------------------------------
  // The pull of one chat type

  /** What one chat type's pull leaves alone: the marker, the full-sync
      stamp and the other chat type's bookmarks. */
  predicate Kept(s: State, s': State, ct: ChatType) {
    && Marker(s') == Marker(s)
    && StateGet(s', LastFullSyncKey) == StateGet(s, LastFullSyncKey)
    && GetBookmark(s', TsKey(Other(ct))) == GetBookmark(s, TsKey(Other(ct)))
    && GetBookmark(s', UrlKey(Other(ct))) == GetBookmark(s, UrlKey(Other(ct)))
  }

  /** `set_bookmark(url_offset_key, next_url)`. */
  function StoreUrl(s: State, ct: ChatType, url: Value): (r: Result<State>)
    ensures r.Ok? <==> Walkable(Obj(s), BookmarkPath(UrlKey(ct)))
    ensures r.Ok? ==>
      && Kept(s, r.value, ct)
      && GetBookmark(r.value, UrlKey(ct)) == url
      && GetBookmark(r.value, TsKey(ct)) == GetBookmark(s, TsKey(ct))
  {
    KeysApart(ct);
    SetBookmark(s, UrlKey(ct), Plain(url))
  }

  /** `set_bookmark(ts_bookmark_key, v)`. */
  function StoreTs(s: State, ct: ChatType, v: Value): (r: Result<State>)
    ensures r.Ok? <==> Walkable(Obj(s), BookmarkPath(TsKey(ct)))
    ensures r.Ok? ==>
      && Kept(s, r.value, ct)
      && GetBookmark(r.value, TsKey(ct)) == v
      && GetBookmark(r.value, UrlKey(ct)) == GetBookmark(s, UrlKey(ct))
  {
    KeysApart(ct);
    SetBookmark(s, TsKey(ct), Plain(v))
  }

  /** `update_start_date_bookmark(ts_bookmark_key)`. */
  function SeedStart(s: State, ct: ChatType, startDate: int): (r: Result<(State, Value)>)
    ensures r.Ok? <==> Walkable(Obj(s), BookmarkPath(TsKey(ct)))
    ensures r.Ok? ==>
      && Kept(s, r.value.0, ct)
      && GetBookmark(r.value.0, TsKey(ct)) == r.value.1
      && (Truthy(GetBookmark(s, TsKey(ct))) ==> r.value.1 == GetBookmark(s, TsKey(ct)))
      && (!Truthy(GetBookmark(s, TsKey(ct))) ==> r.value.1 == Time(startDate))
      && GetBookmark(r.value.0, UrlKey(ct)) == GetBookmark(s, UrlKey(ct))
  {
    KeysApart(ct);
    UpdateStartDateBookmark(s, TsKey(ct), startDate)
  }

  /** `bookmark(url_offset_key)`. */
  function ReadUrl(s: State, ct: ChatType): (r: Result<(State, Value)>)
    ensures r.Ok? <==> Walkable(Obj(s), BookmarkPath(UrlKey(ct)))
    ensures r.Ok? ==>
      && Kept(s, r.value.0, ct)
      && r.value.1 == GetBookmark(s, UrlKey(ct))
      && GetBookmark(r.value.0, UrlKey(ct)) == r.value.1
      && GetBookmark(r.value.0, TsKey(ct)) == GetBookmark(s, TsKey(ct))
  {
    KeysApart(ct);
    match Bookmark(s, UrlKey(ct))
    case Err(e) => Err(e)
    case Ok(res) =>
      BookmarkPreservesAll(s, UrlKey(ct));
      Ok(res)
  }

  /** A full sync forgets both of the chat type's bookmarks. */
  function Forget(s: State, ct: ChatType): (r: Result<State>)
    ensures r.Ok? ==>
      && Kept(s, r.value, ct)
      && GetBookmark(r.value, TsKey(ct)) == Null
      && GetBookmark(r.value, UrlKey(ct)) == Null
  {
    match StoreTs(s, ct, Null)
    case Err(e) => Err(e)
    case Ok(s1) => StoreUrl(s1, ct, Null)
  }

  /** The setup of `_pull`: the state after it, the start time and the
      stored `next_url`. On a full sync both bookmarks are first cleared;
      then a falsy timestamp bookmark is seeded from `start_date`, the
      `next_url` bookmark is read, and the start time is parsed (a stored
      value that is not a timestamp fails here). */
  function PullStart(s: State, ct: ChatType, fullSync: bool, startDate: int): (r: Result<(State, int, Value)>)
    ensures r.Ok? ==>
      && Kept(s, r.value.0, ct)
      && GetBookmark(r.value.0, TsKey(ct)) == Time(r.value.1)
      && GetBookmark(r.value.0, UrlKey(ct)) == r.value.2
    ensures r.Ok? && fullSync ==> r.value.1 == startDate && r.value.2 == Null
    ensures r.Ok? && !fullSync ==>
      && r.value.2 == GetBookmark(s, UrlKey(ct))
      && (Truthy(GetBookmark(s, TsKey(ct))) ==> GetBookmark(s, TsKey(ct)) == Time(r.value.1))
      && (!Truthy(GetBookmark(s, TsKey(ct))) ==> r.value.1 == startDate)
    ensures !fullSync && Truthy(GetBookmark(s, TsKey(ct))) && !GetBookmark(s, TsKey(ct)).Time? ==> r.Err?
  {
    match (if fullSync then Forget(s, ct) else Ok(s))
    case Err(e) => Err(e)
    case Ok(s1) =>
      match SeedStart(s1, ct, startDate)
      case Err(e) => Err(e)
      case Ok(seeded) =>
        match ReadUrl(seeded.0, ct)
        case Err(e) => Err(e)
        case Ok(read) =>
          match ParseTime(seeded.1)
          case Err(e) => Err(e)
          case Ok(start) => Ok((read.0, start, read.1))
  }

  /** The first request of a window: the stored `next_url` when it is set,
      otherwise a fresh search over the window. */
  function FirstRequest(ct: ChatType, w: Window, url: Value): Request {
    if Truthy(url) then FollowUrl(url) else Search(TypeName(ct), TsField(ct), w.begin, w.end)
  }

  /** Appending one event keeps the log owned by the stream and extends the
      records written and the snapshot trail by what the event carries. */
  lemma Appended(log: seq<Event>, e: Event, ct: ChatType, from: nat, m: Value)
    requires from <= |log| && Owned(log, from, ChatsId, m) && OwnedBy(e, ChatsId, m)
    ensures Owned(log + [e], from, ChatsId, m)
    ensures e.RecordsOut? ==> Emitted(log + [e], ChatsId) == Emitted(log, ChatsId) + e.records
    ensures !e.RecordsOut? ==> Emitted(log + [e], ChatsId) == Emitted(log, ChatsId)
    ensures e.StateOut? ==> Trail(log + [e], TsKey(ct)) == Trail(log, TsKey(ct)) + [GetBookmark(e.state, TsKey(ct))]
    ensures !e.StateOut? ==> Trail(log + [e], TsKey(ct)) == Trail(log, TsKey(ct))
  {
    OwnedAppend(log, from, ChatsId, m, [e]);
    assert (log + [e])[..|log|] == log;
  }

  method Write(t: Tap, e: Event, ct: ChatType, ghost from: nat, ghost m: Value) returns (t': Tap)
    requires from <= |t.log| && Owned(t.log, from, ChatsId, m) && OwnedBy(e, ChatsId, m)
    ensures t' == Tap(t.state, t.log + [e])
    ensures Owned(t'.log, from, ChatsId, m)
    ensures e.RecordsOut? ==> Emitted(t'.log, ChatsId) == Emitted(t.log, ChatsId) + e.records
    ensures !e.RecordsOut? ==> Emitted(t'.log, ChatsId) == Emitted(t.log, ChatsId)
    ensures e.StateOut? ==> Trail(t'.log, TsKey(ct)) == Trail(t.log, TsKey(ct)) + [GetBookmark(e.state, TsKey(ct))]
    ensures !e.StateOut? ==> Trail(t'.log, TsKey(ct)) == Trail(t.log, TsKey(ct))
  {
    Appended(t.log, e, ct, from, m);
    t' := Tap(t.state, t.log + [e]);
  }

  /** `set_bookmark(url_offset_key, next_url)` and `write_state()`. */
  method SaveUrl(t: Tap, ct: ChatType, url: Value, ghost from: nat, ghost m: Value) returns (t': Tap, err: Option<Error>)
    requires from <= |t.log| && Owned(t.log, from, ChatsId, m) && Marker(t.state) == m
    ensures t.log <= t'.log && Owned(t'.log, from, ChatsId, m) && Marker(t'.state) == m
    ensures err.None? <==> StoreUrl(t.state, ct, url).Ok?
    ensures err.None? ==>
      && |t'.log| == |t.log| + 1
      && Kept(t.state, t'.state, ct)
      && GetBookmark(t'.state, TsKey(ct)) == GetBookmark(t.state, TsKey(ct))
      && GetBookmark(t'.state, UrlKey(ct)) == url
      && Emitted(t'.log, ChatsId) == Emitted(t.log, ChatsId)
      && Trail(t'.log, TsKey(ct)) == Trail(t.log, TsKey(ct)) + [GetBookmark(t.state, TsKey(ct))]
  {
    var s := StoreUrl(t.state, ct, url);
    if s.Err? {
      return t, Some(s.error);
    }
    t' := Write(Tap(s.value, t.log), StateOut(s.value), ct, from, m);
    err := None;
  }

  /** The first half of a turn of the `while True` loop: request the next
      search page (following `url` when set), store the `next_url` it
      returns and write a snapshot. */
  method Ask(t: Tap, up: Upstream, ct: ChatType, w: Window, url: Value, ghost from: nat, ghost m: Value)
    returns (t': Tap, up': Upstream, url': Value, ids: seq<int>, err: Option<Error>)
    requires from <= |t.log| && Owned(t.log, from, ChatsId, m) && Marker(t.state) == m
    ensures t.log <= t'.log && Owned(t'.log, from, ChatsId, m) && Marker(t'.state) == m
    ensures |t'.log| > |t.log| && t'.log[|t.log|] == Requested(FirstRequest(ct, w, url))
    ensures NextSearch(up).0.Err? ==> err == Some(NextSearch(up).0.error)
    ensures err.None? ==>
      && NextSearch(up).0.Ok? && url' == NextSearch(up).0.value.nextUrl && ids == NextSearch(up).0.value.results
      && |up'.searches| <= |up.searches| && (Truthy(url') ==> |up'.searches| < |up.searches|)
      && Kept(t.state, t'.state, ct)
      && GetBookmark(t'.state, TsKey(ct)) == GetBookmark(t.state, TsKey(ct))
      && GetBookmark(t'.state, UrlKey(ct)) == url'
      && Emitted(t'.log, ChatsId) == Emitted(t.log, ChatsId)
      && Trail(t'.log, TsKey(ct)) == Trail(t.log, TsKey(ct)) + [GetBookmark(t.state, TsKey(ct))]
  {
    var t1 := Write(t, Requested(FirstRequest(ct, w, url)), ct, from, m);
    var (reply, rest) := NextSearch(up);
    up', url', ids := rest, Null, [];
    if reply.Err? {
      return t1, up', url', ids, Some(reply.error);
    }
    url', ids := reply.value.nextUrl, reply.value.results;
    t', err := SaveUrl(t1, ct, url', from, m);
  }

  /** `_bulk_chats`: no request at all for an empty id list, otherwise one
      bulk request for exactly those ids. */
  method BulkChats(t: Tap, up: Upstream, ids: seq<int>) returns (t': Tap, chats: seq<Record>, err: Option<Error>)
    ensures t'.state == t.state
    ensures ids == [] ==> t' == t && chats == [] && err.None?
    ensures ids != [] ==> t'.log == t.log + [Requested(BulkFetch(ids))]
    ensures err.None? <==> ids == [] || BulkDocs(up, ids).Ok?
    ensures err.None? ==> |chats| <= |ids| && forall x :: x in chats ==> x in up.docs.Values
  {
    if ids == [] {
      return t, [], None;
    }
    t' := Emit(t, Requested(BulkFetch(ids)));
    var docs := BulkDocs(up, ids);
    if docs.Err? {
      return t', [], Some(docs.error);
    }
    chats, err := docs.value, None;
  }

  /** The second half: bulk-fetch the ids, write the chats found and fold
      their timestamps into the running maximum `top`. The page is written
      before its timestamps are read, so a chat without the field fails
      after it is out. */
  method Fetch(t: Tap, up: Upstream, ct: ChatType, ids: seq<int>, top: int, ghost from: nat, ghost m: Value)
    returns (t': Tap, top': int, err: Option<Error>, ghost page: seq<Record>)
    requires from <= |t.log| && Owned(t.log, from, ChatsId, m) && Marker(t.state) == m
    ensures t'.state == t.state && t.log <= t'.log && Owned(t'.log, from, ChatsId, m)
    ensures Trail(t'.log, TsKey(ct)) == Trail(t.log, TsKey(ct))
    ensures err.None? ==>
      && Emitted(t'.log, ChatsId) == Emitted(t.log, ChatsId) + page
      && (forall x :: x in page ==> x in up.docs.Values)
      && Highest(top, page, TsField(ct)) == Ok(top')
  {
    var chats;
    t', chats, err := BulkChats(t, up, ids);
    top', page := top, [];
    if ids != [] {
      Appended(t.log, Requested(BulkFetch(ids)), ct, from, m);
    }
    if err.Some? {
      return;
    }
    page := chats;
    if chats != [] {
      t' := Write(t', RecordsOut(ChatsId, chats), ct, from, m);
      var h := Highest(top, chats, TsField(ct));
      if h.Err? {
        err := Some(h.error);
        return;
      }
      top' := h.value;
    }
    err := None;
  }

  /** What a stretch of one chat type's pull has done, from tap `t0` to tap
      `t`: output only appended and owned by the stream, the state `Kept`,
      `page` written, `top` the running maximum over it from `top0`, and
      `trail` the timestamp bookmark in each snapshot written. */
  ghost predicate Progress(t0: Tap, t: Tap, ct: ChatType, top0: int, top: int,
                           page: seq<Record>, trail: seq<Value>, from: nat, m: Value)
  {
    && from <= |t0.log| && t0.log <= t.log && Owned(t.log, from, ChatsId, m) && Marker(t.state) == m
    && Kept(t0.state, t.state, ct)
    && Emitted(t.log, ChatsId) == Emitted(t0.log, ChatsId) + page
    && Highest(top0, page, TsField(ct)) == Ok(top)
    && Trail(t.log, TsKey(ct)) == Trail(t0.log, TsKey(ct)) + trail
  }

  lemma ProgressNone(t: Tap, ct: ChatType, top: int, from: nat, m: Value)
    requires from <= |t.log| && Owned(t.log, from, ChatsId, m) && Marker(t.state) == m
    ensures Progress(t, t, ct, top, top, [], [], from, m)
  {
    assert Emitted(t.log, ChatsId) + [] == Emitted(t.log, ChatsId);
    assert Trail(t.log, TsKey(ct)) + [] == Trail(t.log, TsKey(ct));
  }

  /** Two stretches of a pull, one after the other, make one. */
  lemma ProgressJoin(t0: Tap, t1: Tap, t2: Tap, ct: ChatType, top0: int, top1: int, top2: int,
                     p1: seq<Record>, p2: seq<Record>, tr1: seq<Value>, tr2: seq<Value>, from: nat, m: Value)
    requires Progress(t0, t1, ct, top0, top1, p1, tr1, from, m)
    requires Progress(t1, t2, ct, top1, top2, p2, tr2, from, m)
    ensures Progress(t0, t2, ct, top0, top2, p1 + p2, tr1 + tr2, from, m)
  {
    HighestConcat(top0, p1, p2, TsField(ct));
    ConcatAssoc(Emitted(t0.log, ChatsId), p1, p2);
    ConcatAssoc(Trail(t0.log, TsKey(ct)), tr1, tr2);
  }

  /** One turn of the `while True` loop. */
  method SearchStep(t: Tap, up: Upstream, ct: ChatType, w: Window, url: Value, top: int,
                    ghost from: nat, ghost m: Value)
    returns (t': Tap, up': Upstream, url': Value, top': int, err: Option<Error>, ghost page: seq<Record>)
    requires from <= |t.log| && Owned(t.log, from, ChatsId, m) && Marker(t.state) == m
    ensures t.log <= t'.log && Owned(t'.log, from, ChatsId, m) && Marker(t'.state) == m
    ensures |t'.log| > |t.log| && t'.log[|t.log|] == Requested(FirstRequest(ct, w, url))
    ensures err.None? ==>
      && Progress(t, t', ct, top, top', page, [GetBookmark(t.state, TsKey(ct))], from, m)
      && GetBookmark(t'.state, TsKey(ct)) == GetBookmark(t.state, TsKey(ct))
      && GetBookmark(t'.state, UrlKey(ct)) == url'
      && |up'.searches| <= |up.searches|
      && (Truthy(url') ==> |up'.searches| < |up.searches|)
  {
    var ids;
    t', up', url', ids, err := Ask(t, up, ct, w, url, from, m);
    top', page := top, [];
    if err.Some? {
      return;
    }
    t', top', err, page := Fetch(t', up', ct, ids, top, from, m);
  }

  /** `set_bookmark(ts_bookmark_key, max_bookmark)` and `write_state()`. */
  method SaveTs(t: Tap, ct: ChatType, top: int, ghost from: nat, ghost m: Value) returns (t': Tap, err: Option<Error>)
    requires from <= |t.log| && Owned(t.log, from, ChatsId, m) && Marker(t.state) == m
    ensures t.log <= t'.log && Owned(t'.log, from, ChatsId, m) && Marker(t'.state) == m
    ensures err.None? <==> StoreTs(t.state, ct, Time(top)).Ok?
    ensures err.None? ==>
      && Progress(t, t', ct, top, top, [], [Time(top)], from, m)
      && GetBookmark(t'.state, TsKey(ct)) == Time(top)
      && GetBookmark(t'.state, UrlKey(ct)) == GetBookmark(t.state, UrlKey(ct))
  {
    var s := StoreTs(t.state, ct, Time(top));
    if s.Err? {
      return t, Some(s.error);
    }
    t' := Write(Tap(s.value, t.log), StateOut(s.value), ct, from, m);
    assert Emitted(t.log, ChatsId) + [] == Emitted(t.log, ChatsId);
    err := None;
  }

  /** The close of a window: store the running maximum as the timestamp
      bookmark and snapshot. */
  method CloseWindow(t0: Tap, t: Tap, ct: ChatType, top0: int, top: int,
                     ghost page: seq<Record>, ghost trail: seq<Value>, ghost from: nat, ghost m: Value)
    returns (t': Tap, err: Option<Error>, ghost trail': seq<Value>)
    requires Progress(t0, t, ct, top0, top, page, trail, from, m)
    requires Rising([Time(top0)] + trail) && Last([Time(top0)] + trail) == Time(top0)
    ensures t.log <= t'.log && Owned(t'.log, from, ChatsId, m) && Marker(t'.state) == m
    ensures err.None? ==>
      && Progress(t0, t', ct, top0, top, page, trail', from, m)
      && GetBookmark(t'.state, TsKey(ct)) == Time(top)
      && GetBookmark(t'.state, UrlKey(ct)) == GetBookmark(t.state, UrlKey(ct))
      && Rising([Time(top0)] + trail') && Last([Time(top0)] + trail') == Time(top)
  {
    trail' := trail;
    t', err := SaveTs(t, ct, top, from, m);
    if err.Some? {
      return;
    }
    ProgressJoin(t0, t, t', ct, top0, top, top, page, [], trail, [Time(top)], from, m);
    ConcatAssoc([Time(top0)], trail, [Time(top)]);
    RisingSnoc([Time(top0)] + trail, Time(top));
    assert page + [] == page;
    trail' := trail + [Time(top)];
  }

  /** One window of `_pull`: follow search pages until one comes back
      without a `next_url`, then store the running maximum as the timestamp
      bookmark and snapshot. At the end the stored `next_url` is the falsy
      one that ended the loop. Every snapshot inside the window carries the
      timestamp bookmark the window started with. */
  method PullWindow(t: Tap, up: Upstream, ct: ChatType, w: Window, url: Value, top: int,
                    ghost from: nat, ghost m: Value)
    returns (t': Tap, up': Upstream, top': int, url': Value, err: Option<Error>,
             ghost page: seq<Record>, ghost trail: seq<Value>)
    requires from <= |t.log| && Owned(t.log, from, ChatsId, m) && Marker(t.state) == m
    requires GetBookmark(t.state, TsKey(ct)) == Time(top)
    ensures t.log <= t'.log && Owned(t'.log, from, ChatsId, m) && Marker(t'.state) == m
    ensures |t'.log| > |t.log| && t'.log[|t.log|] == Requested(FirstRequest(ct, w, url))
    ensures err.None? ==>
      && Progress(t, t', ct, top, top', page, trail, from, m)
      && GetBookmark(t'.state, TsKey(ct)) == Time(top')
      && GetBookmark(t'.state, UrlKey(ct)) == url' && !Truthy(url')
      && Rising([Time(top)] + trail) && Last([Time(top)] + trail) == Time(top')
      && |up'.searches| <= |up.searches|
  {
    t', up', top', page, trail := t, up, top, [], [];
    ProgressNone(t, ct, top, from, m);
    RisingOne(Time(top));
    url' := url;
    var done := false;
    while !done
      invariant Progress(t, t', ct, top, top', page, trail, from, m)
      invariant |t'.log| == |t.log| ==> !done && url' == url
      invariant |t'.log| > |t.log| ==> t'.log[|t.log|] == Requested(FirstRequest(ct, w, url))
      invariant GetBookmark(t'.state, TsKey(ct)) == Time(top)
      invariant done ==> GetBookmark(t'.state, UrlKey(ct)) == url' && !Truthy(url')
      invariant Rising([Time(top)] + trail) && Last([Time(top)] + trail) == Time(top)
      invariant |up'.searches| <= |up.searches|
      decreases |up'.searches|, if done then 0 else 1
    {
      var t1, top1, e;
      ghost var p;
      t1, up', url', top1, e, p := SearchStep(t', up', ct, w, url', top', from, m);
      if e.Some? {
        t', err := t1, e;
        return;
      }
      ProgressJoin(t, t', t1, ct, top, top', top1, page, p, trail, [Time(top)], from, m);
      ConcatAssoc([Time(top)], trail, [Time(top)]);
      RisingSnoc([Time(top)] + trail, Time(top));
      t', top', page, trail := t1, top1, page + p, trail + [Time(top)];
      done := !Truthy(url');
    }
    var t2;
    ghost var tr;
    t2, err, tr := CloseWindow(t, t', ct, top, top', page, trail, from, m);
    t', trail := t2, tr;
  }

  /** The `for` loop of `_pull`: one `PullWindow` per window, in order. */
  method PullWindows(t: Tap, up: Upstream, ct: ChatType, windows: seq<Window>, url: Value, top: int,
                     ghost from: nat, ghost m: Value)
    returns (t': Tap, up': Upstream, top': int, err: Option<Error>,
             ghost page: seq<Record>, ghost trail: seq<Value>)
    requires from <= |t.log| && Owned(t.log, from, ChatsId, m) && Marker(t.state) == m
    requires GetBookmark(t.state, TsKey(ct)) == Time(top)
    ensures t.log <= t'.log && Owned(t'.log, from, ChatsId, m) && Marker(t'.state) == m
    ensures windows != [] ==> |t'.log| > |t.log| && t'.log[|t.log|] == Requested(FirstRequest(ct, windows[0], url))
    ensures err.None? ==>
      && Progress(t, t', ct, top, top', page, trail, from, m)
      && GetBookmark(t'.state, TsKey(ct)) == Time(top')
      && (windows != [] ==> !Truthy(GetBookmark(t'.state, UrlKey(ct))))
      && Rising([Time(top)] + trail) && Last([Time(top)] + trail) == Time(top')
  {
    t', up', top', page, trail := t, up, top, [], [];
    ProgressNone(t, ct, top, from, m);
    RisingOne(Time(top));
    var u := url;
    var i := 0;
    while i < |windows|
      invariant 0 <= i <= |windows|
      invariant Progress(t, t', ct, top, top', page, trail, from, m)
      invariant i == 0 ==> u == url && t' == t
      invariant i > 0 ==> |t'.log| > |t.log| && t'.log[|t.log|] == Requested(FirstRequest(ct, windows[0], url))
      invariant GetBookmark(t'.state, TsKey(ct)) == Time(top')
      invariant i > 0 ==> GetBookmark(t'.state, UrlKey(ct)) == u && !Truthy(u)
      invariant Rising([Time(top)] + trail) && Last([Time(top)] + trail) == Time(top')
    {
      var t1, top1, e;
      ghost var p, tr;
      t1, up', top1, u, e, p, tr := PullWindow(t', up', ct, windows[i], u, top', from, m);
      if e.Some? {
        t', err := t1, e;
        return;
      }
      ProgressJoin(t, t', t1, ct, top, top', top1, page, p, trail, tr, from, m);
      RisingJoin([Time(top)] + trail, tr);
      ConcatAssoc([Time(top)], trail, tr);
      t', top', page, trail := t1, top1, page + p, trail + tr;
      i := i + 1;
    }
    err := None;
  }

  /** `_pull(chat_type, ts_field)`: the setup, then every window from the
      start time up to `now`. */
  method Pull(t: Tap, up: Upstream, cfg: Config, ct: ChatType, fullSync: bool, now: int)
    returns (t': Tap, up': Upstream, err: Option<Error>,
             ghost start: int, ghost top: int, ghost page: seq<Record>, ghost trail: seq<Value>)
    requires IntervalDays(cfg) > 0
    ensures StreamStep(t, t', ChatsId)
    ensures PullStart(t.state, ct, fullSync, cfg.startDate).Err? ==> err.Some? && t' == t
    ensures PullStart(t.state, ct, fullSync, cfg.startDate).Ok? ==>
      start == PullStart(t.state, ct, fullSync, cfg.startDate).value.1
    ensures PullStart(t.state, ct, fullSync, cfg.startDate).Ok? && start < now ==>
      && |t'.log| > |t.log|
      && t'.log[|t.log|] == Requested(FirstRequest(ct, BreakIntoIntervals(IntervalDays(cfg), start, now)[0],
                                                   if fullSync then Null else GetBookmark(t.state, UrlKey(ct))))
    ensures err.None? ==>
      && Kept(t.state, t'.state, ct)
      && Emitted(t'.log, ChatsId) == Emitted(t.log, ChatsId) + page
      && Highest(start, page, TsField(ct)) == Ok(top)
      && GetBookmark(t'.state, TsKey(ct)) == Time(top)
      && (start < now ==> !Truthy(GetBookmark(t'.state, UrlKey(ct))))
      && Trail(t'.log, TsKey(ct)) == Trail(t.log, TsKey(ct)) + trail
      && Rising([Time(start)] + trail)
  {
    start, top, page, trail := 0, 0, [], [];
    var st := PullStart(t.state, ct, fullSync, cfg.startDate);
    if st.Err? {
      return t, up, Some(st.error), start, top, page, trail;
    }
    var s, st0, url := st.value.0, st.value.1, st.value.2;
    start := st0;
    var windows := BreakIntoIntervals(IntervalDays(cfg), st0, now);
    t', up', top, err, page, trail := PullWindows(Tap(s, t.log), up, ct, windows, url, st0, |t.log|, Marker(t.state));
  }

  /** The chats of `recs` all carry the chat type's timestamp, and none is
      later than its stored bookmark. */
  ghost predicate Bounded(s: State, ct: ChatType, recs: seq<Record>) {
    && GetBookmark(s, TsKey(ct)).Time?
    && forall x :: x in recs ==>
         TsField(ct) in x.stamps && x.stamps[TsField(ct)] <= GetBookmark(s, TsKey(ct)).t
  }

  /** Writing the full-sync stamp touches no bookmark and not the marker. */
  lemma StampKeeps(s: State, v: Value)
    ensures forall path :: GetBookmark(s[LastFullSyncKey := v], path) == GetBookmark(s, path)
    ensures Marker(s[LastFullSyncKey := v]) == Marker(s)
  {
    forall path ensures GetBookmark(s[LastFullSyncKey := v], path) == GetBookmark(s, path) {
      assert BookmarkPath(path)[0] == "bookmarks" && BookmarkPath(path)[1..] == path;
    }
  }

  /** The two pulls of `Chats.sync`, `chat` by `end_timestamp` first. */
  method PullBoth(t: Tap, up: Upstream, cfg: Config, fullSync: bool, now: int)
    returns (t': Tap, up': Upstream, err: Option<Error>, ghost chats: seq<Record>, ghost offline: seq<Record>)
    requires IntervalDays(cfg) > 0
    ensures StreamStep(t, t', ChatsId)
    ensures err.None? ==>
      && Emitted(t'.log, ChatsId) == Emitted(t.log, ChatsId) + chats + offline
      && Bounded(t'.state, Chat, chats) && Bounded(t'.state, OfflineMsg, offline)
      && StateGet(t'.state, LastFullSyncKey) == StateGet(t.state, LastFullSyncKey)
  {
    offline := [];
    var t1, up1;
    ghost var start1, top1, trail1, start2, top2, trail2;
    t1, up1, err, start1, top1, chats, trail1 := Pull(t, up, cfg, Chat, fullSync, now);
    if err.Some? {
      return t1, up1, err, chats, offline;
    }
    t', up', err, start2, top2, offline, trail2 := Pull(t1, up1, cfg, OfflineMsg, fullSync, now);
    StreamStepJoin(t, t1, t', ChatsId);
  }

  /** `state["chats_last_full_sync"] = now` and a snapshot. */
  method Stamp(t: Tap, now: int) returns (t': Tap)
    ensures StreamStep(t, t', ChatsId)
    ensures StateGet(t'.state, LastFullSyncKey) == Time(now)
    ensures |t'.log| > 0 && Last(t'.log) == StateOut(t'.state)
    ensures Emitted(t'.log, ChatsId) == Emitted(t.log, ChatsId)
    ensures forall path :: GetBookmark(t'.state, path) == GetBookmark(t.state, path)
  {
    var t1 := Tap(t.state[LastFullSyncKey := Time(now)], t.log);
    StampKeeps(t.state, Time(now));
    OwnedAppend(t.log, |t.log|, ChatsId, Marker(t.state), [StateOut(t1.state)]);
    EmittedAppend(t.log, [StateOut(t1.state)], ChatsId);
    assert [StateOut(t1.state)][..0] == [];
    t' := WriteState(t1);
  }

  /** `Chats.sync`: decide on a full sync, pull both chat types, and on a
      full sync stamp the state with `now` and snapshot. */
  method SyncChats(t: Tap, up: Upstream, cfg: Config, now: int)
    returns (t': Tap, up': Upstream, err: Option<Error>, ghost chats: seq<Record>, ghost offline: seq<Record>)
    requires IntervalDays(cfg) > 0
    ensures StreamStep(t, t', ChatsId)
    ensures ShouldRunFullSync(cfg, t.state, now).Err? ==> err.Some? && t' == t
    ensures err.None? ==>
      && ShouldRunFullSync(cfg, t.state, now).Ok?
      && Emitted(t'.log, ChatsId) == Emitted(t.log, ChatsId) + chats + offline
      && Bounded(t'.state, Chat, chats) && Bounded(t'.state, OfflineMsg, offline)
    ensures err.None? && ShouldRunFullSync(cfg, t.state, now).value ==>
      StateGet(t'.state, LastFullSyncKey) == Time(now) && |t'.log| > 0 && Last(t'.log) == StateOut(t'.state)
    ensures err.None? && !ShouldRunFullSync(cfg, t.state, now).value ==>
      StateGet(t'.state, LastFullSyncKey) == StateGet(t.state, LastFullSyncKey)
  {
    chats, offline := [], [];
    var full := ShouldRunFullSync(cfg, t.state, now);
    if full.Err? {
      return t, up, Some(full.error), chats, offline;
    }
    t', up', err, chats, offline := PullBoth(t, up, cfg, full.value, now);
    if err.None? && full.value {
      var t2 := Stamp(t', now);
      StreamStepJoin(t, t', t2, ChatsId);
      t' := t2;
    }
  }
}

=== FILE: context.dfy ===
/** The bookmark store (`Context`): a state document whose `"bookmarks"` entry
    is a nested string-keyed map, read and written by key paths. */
module Context {
  import opened Values

  /** The top level of the state document (`ctx.state`). */
  type State = map<string, Value>

  // ---------------------------------------------------------------------
  // Paths through nested maps

  /** The value under key `k`, or the empty map a read would create. */
  function Child(node: Value, k: string): Value {
    if node.Obj? && k in node.fields then node.fields[k] else EmptyObj
  }

  /** What a read of `path` finds: absent keys read as `{}`. */
  function Lookup(node: Value, path: seq<string>): Value
    decreases |path|
  {
    if path == [] then node else Lookup(Child(node, path[0]), path[1..])
  }

  /** A read or write of `path` only ever indexes into maps: every value met
      strictly before the end of the path is a map (absent ones count as the
      `{}` that gets created). */
  predicate Walkable(node: Value, path: seq<string>)
    decreases |path|
  {
    path == [] || (node.Obj? && Walkable(Child(node, path[0]), path[1..]))
  }

  /** Two paths part ways: at some position they hold different keys. */
  predicate Diverges(p: seq<string>, q: seq<string>)
    decreases |p|
  {
    |p| > 0 && |q| > 0 && (p[0] != q[0] || Diverges(p[1..], q[1..]))
  }

  /** Every key of `path`, the last one included, is present, each in a map. */
  predicate Created(node: Value, path: seq<string>)
    decreases |path|
  {
    path == [] || (node.Obj? && path[0] in node.fields && Created(node.fields[path[0]], path[1..]))
  }

  /** `bookmark(path)` on one node: descend, inserting `{}` for each absent
      key, and return the updated node together with the value found. */
  function Walk(node: Value, path: seq<string>): (r: Result<(Value, Value)>)
    ensures r.Ok? <==> Walkable(node, path)
    ensures r.Ok? ==> r.value.1 == Lookup(node, path) && Lookup(r.value.0, path) == r.value.1
    ensures r.Ok? ==> Created(r.value.0, path)
    ensures r.Ok? && path != [] ==> (
      && r.value.0.Obj?
      && r.value.0.fields.Keys == node.fields.Keys + {path[0]}
      && forall k :: k in node.fields && k != path[0] ==> r.value.0.fields[k] == node.fields[k])
    decreases |path|
  {
    if path == [] then Ok((node, node))
    else if !node.Obj? then Err(TypeError)
    else
      match Walk(Child(node, path[0]), path[1..])
      case Err(e) => Err(e)
      case Ok(res) => Ok((Obj(node.fields[path[0] := res.0]), res.1))
  }

  /** `bookmark(path[:-1])[path[-1]] = x` on one node. An empty path fails
      like `path[-1]` does. */
  function Put(node: Value, path: seq<string>, x: Value): (r: Result<Value>)
    ensures r.Ok? <==> path != [] && Walkable(node, path)
    ensures r.Ok? ==> (
      && r.value.Obj?
      && r.value.fields.Keys == node.fields.Keys + {path[0]}
      && forall k :: k in node.fields && k != path[0] ==> r.value.fields[k] == node.fields[k])
    decreases |path|
  {
    if path == [] then Err(IndexError)
    else if !node.Obj? then Err(TypeError)
    else if |path| == 1 then Ok(Obj(node.fields[path[0] := x]))
    else
      match Put(Child(node, path[0]), path[1..], x)
      case Err(e) => Err(e)
      case Ok(c) => Ok(Obj(node.fields[path[0] := c]))
  }

  /** After a write, a read of the same path returns the written value. */
  lemma {:induction false} LookupPutSame(node: Value, path: seq<string>, x: Value)
    requires Put(node, path, x).Ok?
    ensures Lookup(Put(node, path, x).value, path) == x
    decreases |path|
  {
    if |path| > 1 {
      LookupPutSame(Child(node, path[0]), path[1..], x);
    }
  }

  /** A write leaves every path that parts ways with it unchanged. */
  lemma {:induction false} LookupPutOther(node: Value, path: seq<string>, x: Value, q: seq<string>)
    requires Put(node, path, x).Ok?
    requires Diverges(q, path)
    ensures Lookup(Put(node, path, x).value, q) == Lookup(node, q)
    decreases |path|
  {
    if q[0] == path[0] {
      LookupPutOther(Child(node, path[0]), path[1..], x, q[1..]);
    }
  }

  /** The last write to a path wins. */
  lemma {:induction false} PutPut(node: Value, path: seq<string>, x: Value, y: Value)
    requires Put(node, path, x).Ok?
    ensures Put(Put(node, path, x).value, path, y) == Put(node, path, y)
    decreases |path|
  {
    var k := path[0];
    if |path| == 1 {
      UpdateTwice(node.fields, k, x, y);
    } else {
      var c := Child(node, k);
      PutPut(c, path[1..], x, y);
      UpdateTwice(node.fields, k, Put(c, path[1..], x).value, Put(c, path[1..], y).value);
    }
  }

  lemma UpdateTwice<K, V>(m: map<K, V>, k: K, a: V, b: V)
    ensures m[k := a][k := b] == m[k := b]
  {
  }

  /** A read changes nothing that a later read could see: the value at the
      path itself and at every path that parts ways with it are as before. */
  lemma {:induction false} WalkPreserves(node: Value, path: seq<string>, q: seq<string>)
    requires Walk(node, path).Ok?
    requires q == path || Diverges(q, path)
    ensures Lookup(Walk(node, path).value.0, q) == Lookup(node, q)
    decreases |path|
  {
    if path != [] && q[0] == path[0] {
      WalkPreserves(Child(node, path[0]), path[1..], q[1..]);
    }
  }

  /** Absent keys read as `{}` all the way down. */
  lemma {:induction false} LookupEmpty(path: seq<string>)
    ensures Lookup(EmptyObj, path) == EmptyObj
    decreases |path|
  {
    if path != [] {
      LookupEmpty(path[1..]);
    }
  }

  /** A read that finds a truthy value met no absent key, so it creates
      nothing: the node comes back unchanged. */
  lemma {:induction false} WalkFound(node: Value, path: seq<string>)
    requires Walk(node, path).Ok? && Truthy(Lookup(node, path))
    ensures Walk(node, path).value.0 == node
    decreases |path|
  {
    if path != [] {
      var k := path[0];
      if k !in node.fields {
        LookupEmpty(path[1..]);
        assert false;
      }
      WalkFound(node.fields[k], path[1..]);
      assert node.fields[k := node.fields[k]] == node.fields;
    }
  }

  /** Reading a path a second time finds the same value and creates nothing. */
  lemma {:induction false} WalkTwice(node: Value, path: seq<string>)
    requires Walk(node, path).Ok?
    ensures Walk(Walk(node, path).value.0, path) == Walk(node, path)
    decreases |path|
  {
    if path != [] {
      var k := path[0];
      var c := Child(node, k);
      var w1 := Walk(c, path[1..]).value.0;
      WalkTwice(c, path[1..]);
      assert Child(Walk(node, path).value.0, k) == w1;
      assert node.fields[k := w1][k := w1] == node.fields[k := w1];
    }
  }

  /** Reading a path just written finds the written value and creates nothing. */
  lemma {:induction false} WalkAfterPut(node: Value, path: seq<string>, x: Value)
    requires Put(node, path, x).Ok?
    ensures Walk(Put(node, path, x).value, path) == Ok((Put(node, path, x).value, x))
    decreases |path|
  {
    var n := Put(node, path, x).value;
    if |path| == 1 {
      assert Child(n, path[0]) == x;
      assert Walk(x, []) == Ok((x, x));
      assert n.fields[path[0] := x] == n.fields;
    } else {
      var c := Child(node, path[0]);
      WalkAfterPut(c, path[1..], x);
      assert Child(n, path[0]) == Put(c, path[1..], x).value;
      assert n.fields[path[0] := Put(c, path[1..], x).value] == n.fields;
    }
  }

  // ---------------------------------------------------------------------
  // The state document

  function BookmarkPath(path: seq<string>): seq<string> {
    ["bookmarks"] + path
  }

  lemma BookmarkPathDiverges(p: seq<string>, q: seq<string>)
    ensures Diverges(BookmarkPath(p), BookmarkPath(q)) <==> Diverges(p, q)
  {
    assert BookmarkPath(p)[1..] == p && BookmarkPath(q)[1..] == q;
  }

  /** What `bookmark(path)` would return, without the keys it creates. */
  function GetBookmark(s: State, path: seq<string>): Value {
    Lookup(Obj(s), BookmarkPath(path))
  }

  /** `bookmark(path)`: the state with every absent level created, and the
      value found. Only a non-map value on the way makes it fail. */
  function Bookmark(s: State, path: seq<string>): (r: Result<(State, Value)>)
    ensures r.Ok? <==> Walkable(Obj(s), BookmarkPath(path))
    ensures r.Ok? ==> r.value.1 == GetBookmark(s, path) && GetBookmark(r.value.0, path) == r.value.1
    ensures r.Ok? ==> (
      && "bookmarks" in r.value.0
      && forall k :: k in s && k != "bookmarks" ==> k in r.value.0 && r.value.0[k] == s[k])
    ensures r.Ok? ==> r.value.0.Keys == s.Keys + {"bookmarks"}
    ensures r.Ok? ==> Created(Obj(r.value.0), BookmarkPath(path))
    ensures r.Ok? && Truthy(GetBookmark(s, path)) ==> r.value.0 == s
  {
    match Walk(Obj(s), BookmarkPath(path))
    case Err(e) => Err(e)
    case Ok(res) =>
      if Truthy(res.1) then
        WalkFound(Obj(s), BookmarkPath(path));
        Ok((res.0.fields, res.1))
      else Ok((res.0.fields, res.1))
  }

  /** The `bookmarks` property: the bookmarks map is inserted as `{}` only
      when absent; otherwise the state and the existing value are returned
      untouched. */
  lemma BookmarksProperty(s: State)
    ensures "bookmarks" !in s ==> Bookmark(s, []) == Ok((s["bookmarks" := EmptyObj], EmptyObj))
    ensures "bookmarks" in s ==> Bookmark(s, []) == Ok((s, s["bookmarks"]))
  {
    assert BookmarkPath([]) == ["bookmarks"];
    assert Walk(Child(Obj(s), "bookmarks"), []) == Ok((Child(Obj(s), "bookmarks"), Child(Obj(s), "bookmarks")));
    if "bookmarks" in s {
      assert s["bookmarks" := s["bookmarks"]] == s;
    }
  }

  /** A value handed to `set_bookmark`: a JSON value, or a datetime that is
      stored as its ISO-8601 string. */
  datatype BookmarkArg = Plain(v: Value) | DateTime(t: int)

  function Serialize(a: BookmarkArg): Value {
    match a
    case Plain(v) => v
    case DateTime(t) => Time(t)
  }

  /** `set_bookmark(path, val)`. */
  function SetBookmark(s: State, path: seq<string>, a: BookmarkArg): (r: Result<State>)
    ensures r.Ok? <==> path != [] && Walkable(Obj(s), BookmarkPath(path))
    ensures r.Ok? ==> GetBookmark(r.value, path) == Serialize(a)
    ensures r.Ok? ==> a.DateTime? ==> GetBookmark(r.value, path) == Time(a.t)
    ensures r.Ok? ==> forall q :: Diverges(q, path) ==> GetBookmark(r.value, q) == GetBookmark(s, q)
    ensures r.Ok? ==> (
      && r.value.Keys == s.Keys + {"bookmarks"}
      && forall k :: k in s && k != "bookmarks" ==> r.value[k] == s[k])
    ensures r.Ok? ==> Walkable(Obj(r.value), BookmarkPath(path))
  {
    if path == [] then Err(IndexError)
    else
      match Put(Obj(s), BookmarkPath(path), Serialize(a))
      case Err(e) => Err(e)
      case Ok(n) =>
        LookupPutSame(Obj(s), BookmarkPath(path), Serialize(a));
        SetBookmarkSiblings(s, path, Serialize(a));
        WalkAfterPut(Obj(s), BookmarkPath(path), Serialize(a));
        Ok(n.fields)
  }

  lemma SetBookmarkSiblings(s: State, path: seq<string>, x: Value)
    requires Put(Obj(s), BookmarkPath(path), x).Ok?
    ensures forall q :: Diverges(q, path) ==>
      Lookup(Put(Obj(s), BookmarkPath(path), x).value, BookmarkPath(q)) == GetBookmark(s, q)
  {
    forall q | Diverges(q, path)
      ensures Lookup(Put(Obj(s), BookmarkPath(path), x).value, BookmarkPath(q)) == GetBookmark(s, q)
    {
      BookmarkPathDiverges(q, path);
      LookupPutOther(Obj(s), BookmarkPath(path), x, BookmarkPath(q));
    }
  }

  /** A read through `bookmark` leaves what later reads see unchanged. */
  lemma BookmarkPreserves(s: State, path: seq<string>, q: seq<string>)
    requires Bookmark(s, path).Ok?
    requires q == path || Diverges(q, path)
    ensures GetBookmark(Bookmark(s, path).value.0, q) == GetBookmark(s, q)
  {
    BookmarkPathDiverges(q, path);
    WalkPreserves(Obj(s), BookmarkPath(path), BookmarkPath(q));
  }

  /** The last `set_bookmark` to a path wins. */
  lemma SetBookmarkTwice(s: State, path: seq<string>, a: BookmarkArg, b: BookmarkArg)
    requires SetBookmark(s, path, a).Ok?
    ensures SetBookmark(SetBookmark(s, path, a).value, path, b) == SetBookmark(s, path, b)
  {
    PutPut(Obj(s), BookmarkPath(path), Serialize(a), Serialize(b));
  }

  /** `update_start_date_bookmark(path)`: a falsy stored value (absent, so
      `{}`, or `None`, `0`, `""`) is replaced by the configured start date,
      which is returned; a truthy one is returned and left in place. */
  function UpdateStartDateBookmark(s: State, path: seq<string>, startDate: int): (r: Result<(State, Value)>)
    ensures r.Ok? <==> Walkable(Obj(s), BookmarkPath(path)) && (path != [] || Truthy(GetBookmark(s, path)))
    ensures r.Ok? ==> GetBookmark(r.value.0, path) == r.value.1 && Truthy(r.value.1)
    ensures r.Ok? && Truthy(GetBookmark(s, path)) ==> r.value.1 == GetBookmark(s, path)
    ensures r.Ok? && Truthy(GetBookmark(s, path)) ==> r.value.0 == s
    ensures r.Ok? && !Truthy(GetBookmark(s, path)) ==> r.value.1 == Time(startDate)
    ensures r.Ok? ==> forall q :: Diverges(q, path) ==> GetBookmark(r.value.0, q) == GetBookmark(s, q)
    ensures r.Ok? ==> (
      && r.value.0.Keys == s.Keys + {"bookmarks"}
      && forall k :: k in s && k != "bookmarks" ==> r.value.0[k] == s[k])
  {
    match Bookmark(s, path)
    case Err(e) => Err(e)
    case Ok(res) =>
      var (s1, v) := res;
      BookmarkPreservesAll(s, path);
      if Truthy(v) then Ok((s1, v))
      else
        match SetBookmark(s1, path, Plain(Time(startDate)))
        case Err(e) => Err(e)
        case Ok(s2) => Ok((s2, Time(startDate)))
  }

  lemma BookmarkPreservesAll(s: State, path: seq<string>)
    requires Bookmark(s, path).Ok?
    ensures forall q :: Diverges(q, path) ==> GetBookmark(Bookmark(s, path).value.0, q) == GetBookmark(s, q)
    ensures Walkable(Obj(Bookmark(s, path).value.0), BookmarkPath(path))
  {
    forall q | Diverges(q, path)
      ensures GetBookmark(Bookmark(s, path).value.0, q) == GetBookmark(s, q)
    {
      BookmarkPreserves(s, path, q);
    }
    WalkTwice(Obj(s), BookmarkPath(path));
  }

  /** Seeding is idempotent: a second call returns the same value and leaves
      the state as the first call left it. */
  lemma UpdateStartDateIdempotent(s: State, path: seq<string>, startDate: int)
    requires UpdateStartDateBookmark(s, path, startDate).Ok?
    ensures var (s1, v) := UpdateStartDateBookmark(s, path, startDate).value;
      UpdateStartDateBookmark(s1, path, startDate) == Ok((s1, v))
  {
    var (s1, v) := UpdateStartDateBookmark(s, path, startDate).value;
    var (w, found) := Bookmark(s, path).value;
    if Truthy(found) {
      WalkTwice(Obj(s), BookmarkPath(path));
      assert Obj(w) == Walk(Obj(s), BookmarkPath(path)).value.0;
    } else {
      WalkAfterPut(Obj(w), BookmarkPath(path), Time(startDate));
      assert Obj(s1) == Put(Obj(w), BookmarkPath(path), Time(startDate)).value;
    }
  }

  /** `state.get("currently_syncing")`. */
  function Marker(s: State): Value {
    if "currently_syncing" in s then s["currently_syncing"] else Null
  }

  /** The configuration keys the replication logic reads. `start_date` is
      required; the others are optional. `chats_full_sync_days` is kept as
      the raw value (`Null` when absent), because it is tested for truthiness
      before it is converted. */
  datatype Config = Config(
    startDate: int,
    agentsPageLimit: Option<int>,
    bansPageLimit: Option<int>,
    chatSearchIntervalDays: Option<int>,
    chatsFullSyncDays: Value)
}

=== FILE: discover.dfy ===
/** Discovery: the catalog's metadata for each stream (`build_metadata`), the
    403 probe of the account endpoint (`account_not_authorized`), and the
    stream list of `discover`. */
module Discover {
  import opened Values
  import opened Upstream
  import opened Streams

  datatype Inclusion = Automatic | Available

  /** A metadata breadcrumb: `()` for the stream, `("properties", name)` for
      a field. */
  datatype Breadcrumb = Root | Property(name: string)

  datatype Entry =
    | RootEntry(validReplicationKeys: set<string>, tableKeyProperties: seq<string>,
                forcedReplicationMethod: ReplicationMethod)
    | PropertyEntry(inclusion: Inclusion)

  /** `metadata.new()` and what `metadata.write` puts in it, by breadcrumb. */
  type Metadata = map<Breadcrumb, Entry>

  /** `build_metadata(schema, stream)` for a schema with properties `props`:
      a field is automatic exactly when it is a replication key or a primary
      key, and every property gets one entry and nothing else does. */
  function BuildMetadata(props: seq<string>, s: Stream): (md: Metadata)
    ensures Root in md && md[Root] == RootEntry(ReplicationKeys(s), s.pk, ForcedMethod(s))
    ensures forall b :: b in md ==> b == Root || (b.Property? && b.name in props && md[b].PropertyEntry?)
    ensures forall p :: p in props ==> Property(p) in md
    ensures forall p :: p in props ==>
      (md[Property(p)] == PropertyEntry(Automatic) <==> p in ReplicationKeys(s) || p in s.pk)
  {
    if props == [] then
      map[Root := RootEntry(ReplicationKeys(s), s.pk, ForcedMethod(s))]
    else
      var p := Last(props);
      var inclusion := if p in ReplicationKeys(s) || p in s.pk then Automatic else Available;
      BuildMetadata(props[..|props| - 1], s)[Property(p) := PropertyEntry(inclusion)]
  }

  /** The fields a catalog marks automatic. */
  function AutomaticFields(md: Metadata): set<string> {
    set b | b in md && b.Property? && md[b] == PropertyEntry(Automatic) :: b.name
  }

  lemma AutomaticFieldsAre(props: seq<string>, s: Stream)
    ensures AutomaticFields(BuildMetadata(props, s)) ==
      set p | p in props && (p in ReplicationKeys(s) || p in s.pk)
  {
    var md := BuildMetadata(props, s);
    forall p | p in props && (p in ReplicationKeys(s) || p in s.pk) ensures p in AutomaticFields(md) {
      assert Property(p) in md && Property(p).name == p;
    }
  }

  /** Chats' automatic fields are its key and both replication keys. */
  lemma ChatsAutomaticFields(props: seq<string>)
    requires "id" in props && "timestamp" in props && "end_timestamp" in props
    ensures AutomaticFields(BuildMetadata(props, AllStreams[3])) == {"id", "timestamp", "end_timestamp"}
  {
    AutomaticFieldsAre(props, AllStreams[3]);
  }

  /** Every other stream's automatic fields are just its primary key. */
  lemma OtherAutomaticFields(props: seq<string>, k: nat)
    requires k < |AllStreams| && AllStreams[k].kind != ChatsKind
    requires forall f :: f in AllStreams[k].pk ==> f in props
    ensures AutomaticFields(BuildMetadata(props, AllStreams[k])) == set f | f in AllStreams[k].pk
  {
    AutomaticFieldsAre(props, AllStreams[k]);
  }

  /** `account_not_authorized`, given the outcome of `GET /account`: true on a
      403, false on success, and any other error propagates. */
  function AccountNotAuthorized(probe: Result<Record>): (r: Result<bool>)
    ensures r == Ok(true) <==> probe == Err(HttpError(403))
    ensures r == Ok(false) <==> probe.Ok?
    ensures r.Err? ==> probe.Err? && r.error == probe.error
  {
    match probe
    case Ok(_) => Ok(false)
    case Err(e) => if e == HttpError(403) then Ok(true) else Err(e)
  }

  /** One catalog entry: the stream and its metadata. */
  datatype CatalogStream = CatalogStream(stream: Stream, metadata: Metadata)

  function StreamsOf(cs: seq<CatalogStream>): (r: seq<Stream>)
    ensures |r| == |cs| && forall i :: 0 <= i < |cs| ==> r[i] == cs[i].stream
  {
    seq(|cs|, i requires 0 <= i < |cs| => cs[i].stream)
  }

  /** `STREAMS.pop(id)` on the stream table. */
  function Drop(ss: seq<Stream>, id: string): (r: seq<Stream>)
    ensures forall s :: s in r <==> s in ss && s.id != id
  {
    if ss == [] then []
    else (if ss[0].id == id then [] else [ss[0]]) + Drop(ss[1..], id)
  }

  lemma {:induction false} DropOrdered(ss: seq<Stream>, id: string)
    ensures Subseq(Drop(ss, id), ss)
  {
    if ss != [] {
      DropOrdered(ss[1..], id);
      if ss[0].id == id {
        assert Drop(ss, id) == Drop(ss[1..], id);
        SubseqSkip(Drop(ss[1..], id), ss);
      } else {
        assert Drop(ss, id)[1..] == Drop(ss[1..], id);
      }
    }
  }

  /** Whether the account probe answered 403 (only probed with a
      configuration). */
  predicate Unauthorized(configured: bool, up: Upstream) {
    configured && FetchAccount(up) == Err(HttpError(403))
  }

  /** The streams `discover` lists: with a configuration, probe the chats
      endpoint (any error ends discovery) and the account endpoint, and leave
      out `account` exactly when that probe answered 403. */
  function DiscoveredStreams(configured: bool, up: Upstream): (r: Result<seq<Stream>>)
    ensures configured && FetchList(up, "chats").Err? ==> r == Err(FetchList(up, "chats").error)
    ensures configured && FetchList(up, "chats").Ok? && AccountNotAuthorized(FetchAccount(up)).Err? ==>
      r == Err(FetchAccount(up).error)
    ensures r.Ok? <==> !configured || (FetchList(up, "chats").Ok? && AccountNotAuthorized(FetchAccount(up)).Ok?)
    ensures r.Ok? ==> forall s :: s in r.value <==> s in AllStreams && (s.id != "account" || !Unauthorized(configured, up))
    ensures r.Ok? ==> Subseq(r.value, AllStreams)
  {
    if configured && FetchList(up, "chats").Err? then Err(FetchList(up, "chats").error)
    else
      var probe := if configured then AccountNotAuthorized(FetchAccount(up)) else Ok(false);
      match probe
      case Err(e) => Err(e)
      case Ok(drop) =>
        DropOrdered(AllStreams, "account");
        SubseqRefl(AllStreams);
        Ok(if drop then Drop(AllStreams, "account") else AllStreams)
  }

  /** The catalog entries for `ss`, each with the metadata built from its
      schema. `schema` stands for the bundled schema files, as the names of
      their properties. */
  function CatalogOf(ss: seq<Stream>, schema: string -> seq<string>): (r: seq<CatalogStream>)
    ensures StreamsOf(r) == ss
    ensures forall c :: c in r ==> c.metadata == BuildMetadata(schema(c.stream.id), c.stream)
  {
    seq(|ss|, i requires 0 <= i < |ss| => CatalogStream(ss[i], BuildMetadata(schema(ss[i].id), ss[i])))
  }

  /** `discover`. */
  function Discover(configured: bool, up: Upstream, schema: string -> seq<string>): (r: Result<seq<CatalogStream>>)
    ensures r.Ok? <==> DiscoveredStreams(configured, up).Ok?
    ensures r.Err? ==> r.error == DiscoveredStreams(configured, up).error
    ensures r.Ok? ==> StreamsOf(r.value) == DiscoveredStreams(configured, up).value
    ensures r.Ok? ==> forall c :: c in r.value ==> c.metadata == BuildMetadata(schema(c.stream.id), c.stream)
  {
    match DiscoveredStreams(configured, up)
    case Err(e) => Err(e)
    case Ok(ss) => Ok(CatalogOf(ss, schema))
  }
}

=== FILE: intervals.dfy ===
/** Splitting `[start, now)` into search windows of at most `days` days
    (`break_into_intervals`). Instants are integer seconds. */
module Intervals {
  import opened Values

  const SecondsPerDay: int := 86400

  datatype Window = Window(begin: int, end: int)

  /** `timedelta(days=days)` in seconds. */
  function Delta(days: int): (d: int)
    requires days > 0
    ensures d >= SecondsPerDay
  {
    days * SecondsPerDay
  }

  /** The windows the generator yields, in order. `days <= 0` is excluded
      when the start is before `now`: with 0 the source loop never advances,
      and with a negative value each window runs backwards, so the loop walks
      back in time until the datetime arithmetic overflows. */
  function BreakIntoIntervals(days: int, start: int, now: int): (r: seq<Window>)
    requires days > 0 || start >= now
    ensures start >= now <==> r == []
    ensures start < now ==> r[0].begin == start && Last(r).end == now
    ensures forall i :: 0 <= i < |r| ==>
      start <= r[i].begin < r[i].end <= now
      && r[i].end == Min(r[i].begin + Delta(days), now)
    ensures forall i :: 0 <= i < |r| - 1 ==>
      r[i].end == r[i + 1].begin && r[i].end - r[i].begin == Delta(days)
  {
    if start >= now then [] else Split(Delta(days), start, now)
  }

  /** The generator's loop for a window length of `d` seconds. */
  function Split(d: int, start: int, now: int): (r: seq<Window>)
    requires d > 0
    ensures start >= now <==> r == []
    ensures start < now ==> r[0].begin == start && Last(r).end == now
    ensures forall i :: 0 <= i < |r| ==>
      start <= r[i].begin < r[i].end <= now && r[i].end == Min(r[i].begin + d, now)
    ensures forall i :: 0 <= i < |r| - 1 ==>
      r[i].end == r[i + 1].begin && r[i].end - r[i].begin == d
    decreases now - start
  {
    if start < now then
      var end := Min(start + d, now);
      [Window(start, end)] + Split(d, end, now)
    else
      []
  }

  /** Window `i` holds instant `t` (a window is half-open, `[begin, end)`). */
  predicate Holds(w: Window, t: int) {
    w.begin <= t < w.end
  }

  /** Later windows start no earlier than earlier windows end. */
  lemma {:induction false} SplitOrdered(d: int, start: int, now: int, i: int, j: int)
    requires d > 0
    requires 0 <= i < j < |Split(d, start, now)|
    ensures Split(d, start, now)[i].end <= Split(d, start, now)[j].begin
    decreases j - i
  {
    if i + 1 < j {
      SplitOrdered(d, start, now, i + 1, j);
    }
  }

  /** Every instant of `[start, now)` lies in some window. */
  lemma {:induction false} SplitCovers(d: int, start: int, now: int, t: int)
    requires d > 0
    requires start <= t < now
    ensures exists i :: 0 <= i < |Split(d, start, now)| && Holds(Split(d, start, now)[i], t)
    decreases now - start
  {
    var r := Split(d, start, now);
    var end := Min(start + d, now);
    if t < end {
      assert Holds(r[0], t);
    } else {
      var rest := Split(d, end, now);
      assert r == [Window(start, end)] + rest;
      SplitCovers(d, end, now, t);
      var k :| 0 <= k < |rest| && Holds(rest[k], t);
      assert r[k + 1] == rest[k];
    }
  }

  /** The windows partition `[start, now)`: every instant in it lies in
      exactly one window, and no window reaches outside it. */
  lemma SplitPartition(d: int, start: int, now: int, t: int)
    requires d > 0
    ensures var r := Split(d, start, now);
      (start <= t < now <==> exists i :: 0 <= i < |r| && Holds(r[i], t))
      && forall i, j :: 0 <= i < j < |r| ==> !(Holds(r[i], t) && Holds(r[j], t))
  {
    var r := Split(d, start, now);
    if start <= t < now {
      SplitCovers(d, start, now, t);
    }
    forall i, j | 0 <= i < j < |r|
      ensures !(Holds(r[i], t) && Holds(r[j], t))
    {
      SplitOrdered(d, start, now, i, j);
    }
  }

  /** The number of windows is the length of the span divided by the window
      length, rounded up: `|r| - 1` full windows fall short of the span and
      `|r|` windows reach it. */
  lemma {:induction false} SplitCount(d: int, start: int, now: int)
    requires d > 0
    ensures var n := |Split(d, start, now)|;
      start < now ==> (n - 1) * d < now - start <= n * d
    decreases now - start
  {
    if start < now {
      var end := Min(start + d, now);
      var n' := |Split(d, end, now)|;
      SplitCount(d, end, now);
      assert |Split(d, start, now)| == n' + 1;
      Distribute(n', d);
    }
  }

  lemma Distribute(n: int, d: int)
    ensures (n + 1) * d == n * d + d && (n - 1) * d == n * d - d
  {
  }

  /** Worked example: 30-day windows from 2018-01-02T18:14:33Z to
      2018-02-14T10:30:20Z split once, at 2018-02-01T18:14:33Z. */
  lemma ThirtyDayExample()
    ensures BreakIntoIntervals(30, 1514916873, 1518604220)
      == [Window(1514916873, 1517508873), Window(1517508873, 1518604220)]
  {
    var r := BreakIntoIntervals(30, 1514916873, 1518604220);
    assert r == [Window(1514916873, 1517508873)] + BreakIntoIntervals(30, 1517508873, 1518604220);
    assert BreakIntoIntervals(30, 1517508873, 1518604220)
      == [Window(1517508873, 1518604220)] + BreakIntoIntervals(30, 1518604220, 1518604220);
  }
}

=== FILE: log.dfy ===
/** What the connector emits, as an append-only log: the requests it issues to
    the API, the schema and record messages it writes, and every state
    snapshot it flushes (`write_state`). */
module Log {
  import opened Values
  import opened Context

  /** A call to the HTTP collaborator. */
  datatype Request =
    | ListPage(stream: string, since: Value, limit: int)      // since_id paging
    | FetchAll(stream: string)                                // one-shot endpoints
    | Search(chatType: string, field: string, begin: int, end: int)
    | FollowUrl(url: Value)                                   // a stored next_url
    | BulkFetch(ids: seq<int>)                                // chats by id

  datatype Event =
    | Requested(req: Request)
    | SchemaOut(stream: string)
    | RecordsOut(stream: string, records: seq<Record>)
    | StateOut(state: State)

  /** The connector's mutable context: the state document and the output so
      far. */
  datatype Tap = Tap(state: State, log: seq<Event>)

  /** `ctx.write_state()`. */
  function WriteState(t: Tap): Tap {
    Tap(t.state, t.log + [StateOut(t.state)])
  }

  function Emit(t: Tap, e: Event): Tap {
    Tap(t.state, t.log + [e])
  }

  /** The last state snapshot in a log, if any. */
  function LastState(log: seq<Event>): Option<State> {
    if log == [] then None
    else if Last(log).StateOut? then Some(Last(log).state)
    else LastState(log[..|log| - 1])
  }

  /** Whether an event may be produced while stream `id` is being synced with
      the marker `marker` in place: no schema messages, records only of that
      stream, snapshots only with the marker unchanged. */
  predicate OwnedBy(e: Event, id: string, marker: Value) {
    match e
    case Requested(_) => true
    case SchemaOut(_) => false
    case RecordsOut(s, _) => s == id
    case StateOut(st) => Marker(st) == marker
  }

  /** The contract every stream's sync keeps: output is only appended, only
      its own records are written, and `currently_syncing` is left alone in
      the state and in every snapshot. */
  predicate StreamStep(t: Tap, t': Tap, id: string) {
    && t.log <= t'.log
    && Marker(t'.state) == Marker(t.state)
    && Owned(t'.log, |t.log|, id, Marker(t.state))
  }

  /** Two steps of the same stream make one. */
  lemma StreamStepJoin(t0: Tap, t1: Tap, t2: Tap, id: string)
    requires StreamStep(t0, t1, id) && StreamStep(t1, t2, id)
    ensures StreamStep(t0, t2, id)
  {
    forall i | |t0.log| <= i < |t2.log| ensures OwnedBy(t2.log[i], id, Marker(t0.state)) {
      if i < |t1.log| {
        assert t2.log[i] == t1.log[i];
      }
    }
  }

  /** Every event from position `from` on is owned by stream `id`. */
  predicate Owned(log: seq<Event>, from: nat, id: string, marker: Value) {
    forall i :: from <= i < |log| ==> OwnedBy(log[i], id, marker)
  }

  lemma OwnedAppend(log: seq<Event>, from: nat, id: string, marker: Value, more: seq<Event>)
    requires from <= |log| && Owned(log, from, id, marker)
    requires forall e :: e in more ==> OwnedBy(e, id, marker)
    ensures Owned(log + more, from, id, marker)
  {
    forall i | from <= i < |log + more| ensures OwnedBy((log + more)[i], id, marker) {
      if i >= |log| {
        assert (log + more)[i] == more[i - |log|];
      }
    }
  }

  /** Snapshots written after `from` all carry marker `m`, and so does the
      last one before it: then the last snapshot of all carries `m`. */
  lemma {:induction false} LastStateMarker(log: seq<Event>, from: nat, m: Value)
    requires from <= |log|
    requires LastState(log[..from]).Some? && Marker(LastState(log[..from]).value) == m
    requires forall i :: from <= i < |log| && log[i].StateOut? ==> Marker(log[i].state) == m
    ensures LastState(log).Some? && Marker(LastState(log).value) == m
    decreases |log|
  {
    if |log| > from {
      if !Last(log).StateOut? {
        var init := log[..|log| - 1];
        assert init[..from] == log[..from];
        LastStateMarker(init, from, m);
      }
    } else {
      assert log[..from] == log;
    }
  }

  /** Every record written to `stream` in a log, in order. */
  function Emitted(log: seq<Event>, stream: string): seq<Record> {
    if log == [] then []
    else
      var rest := Emitted(log[..|log| - 1], stream);
      match Last(log)
      case RecordsOut(s, recs) => if s == stream then rest + recs else rest
      case _ => rest
  }

  lemma {:induction false} EmittedAppend(a: seq<Event>, b: seq<Event>, stream: string)
    ensures Emitted(a + b, stream) == Emitted(a, stream) + Emitted(b, stream)
    decreases |b|
  {
    if b == [] {
      assert a + b == a;
    } else {
      var b' := b[..|b| - 1];
      assert (a + b)[..|a + b| - 1] == a + b';
      EmittedAppend(a, b', stream);
    }
  }

  /** A stretch of log owned by stream `id` writes no records of any other
      stream. */
  lemma {:induction false} EmittedOwned(log: seq<Event>, from: nat, id: string, m: Value, x: string)
    requires from <= |log| && Owned(log, from, id, m) && x != id
    ensures Emitted(log, x) == Emitted(log[..from], x)
    decreases |log|
  {
    if |log| > from {
      var init := log[..|log| - 1];
      assert init[..from] == log[..from];
      assert OwnedBy(log[|log| - 1], id, m);
      EmittedOwned(init, from, id, m, x);
    } else {
      assert log[..from] == log;
    }
  }

  /** The pages written to `stream` in a log, one per records message. */
  function PagesOf(log: seq<Event>, stream: string): seq<seq<Record>> {
    if log == [] then []
    else
      var rest := PagesOf(log[..|log| - 1], stream);
      match Last(log)
      case RecordsOut(s, recs) => if s == stream then rest + [recs] else rest
      case _ => rest
  }

  lemma {:induction false} PagesOfAppend(a: seq<Event>, b: seq<Event>, stream: string)
    ensures PagesOf(a + b, stream) == PagesOf(a, stream) + PagesOf(b, stream)
    decreases |b|
  {
    if b == [] {
      assert a + b == a;
    } else {
      var b' := b[..|b| - 1];
      assert (a + b)[..|a + b| - 1] == a + b';
      PagesOfAppend(a, b', stream);
    }
  }
}

=== FILE: paging.dfy ===
/** since_id paging in the abstract: a server answers each since_id with a
    page of records, and the client asks again from the last id of each
    non-empty page + 1 until a page comes back empty. The agents and bans
    streams are two instances of this loop. */
module Paging {
  import opened Values

  /** Every non-empty page leads to a since_id with strictly less left to
      serve, as counted by `measure`: paging stops wherever it starts. */
  ghost predicate Progressing(serve: int -> seq<Record>, measure: int -> nat) {
    forall s :: serve(s) != [] ==> measure(Last(serve(s)).id + 1) < measure(s)
  }

  /** Every record a page holds is at or above the since_id it answers. */
  ghost predicate Honest(serve: int -> seq<Record>) {
    forall s, x :: x in serve(s) ==> x.id >= s
  }

  /** The pages served from `since` on, in request order. */
  function Pages(serve: int -> seq<Record>, measure: int -> nat, since: int): seq<seq<Record>>
    requires Progressing(serve, measure)
    decreases measure(since)
  {
    if serve(since) == [] then []
    else [serve(since)] + Pages(serve, measure, Last(serve(since)).id + 1)
  }

  /** Paging stops at the first empty page. */
  lemma PagesEnd(serve: int -> seq<Record>, measure: int -> nat, since: int)
    requires Progressing(serve, measure) && serve(since) == []
    ensures Pages(serve, measure, since) == []
  {
  }

  /** A non-empty page is followed by the paging from its last id + 1. */
  lemma PagesNext(serve: int -> seq<Record>, measure: int -> nat, since: int)
    requires Progressing(serve, measure) && serve(since) != []
    ensures Pages(serve, measure, since)
            == [serve(since)] + Pages(serve, measure, Last(serve(since)).id + 1)
  {
  }

  /** No page written is empty. */
  lemma {:induction false} PagesNonEmpty(serve: int -> seq<Record>, measure: int -> nat, since: int)
    requires Progressing(serve, measure)
    ensures forall p :: p in Pages(serve, measure, since) ==> p != []
    decreases measure(since)
  {
    if serve(since) != [] {
      PagesNonEmpty(serve, measure, Last(serve(since)).id + 1);
    }
  }

  /** Against an honest server every record of every page is at or above
      the since_id that started the paging. */
  lemma {:induction false} PagesAbove(serve: int -> seq<Record>, measure: int -> nat, since: int)
    requires Progressing(serve, measure) && Honest(serve)
    ensures forall p, x :: p in Pages(serve, measure, since) && x in p ==> x.id >= since
    decreases measure(since)
  {
    if serve(since) != [] {
      var page := serve(since);
      assert Last(page) in page;
      PagesAbove(serve, measure, Last(page).id + 1);
    }
  }

  /** The since_id a run of pages leaves behind: the starting one before any
      page, else the last page's last id + 1. */
  function SinceAfter(s0: int, done: seq<seq<Record>>): int {
    if done == [] || Last(done) == [] then s0 else Last(Last(done)).id + 1
  }

  /** `done` is how paging from `s0` begins: every page is non-empty and is
      the one served for the since_id the pages before it leave behind. */
  predicate Served(serve: int -> seq<Record>, s0: int, done: seq<seq<Record>>)
    decreases |done|
  {
    done == [] ||
      (&& Served(serve, s0, done[..|done| - 1])
       && Last(done) != []
       && Last(done) == serve(SinceAfter(s0, done[..|done| - 1])))
  }

  /** Taking the next non-empty page extends what has been served. */
  lemma ServedSnoc(serve: int -> seq<Record>, s0: int, done: seq<seq<Record>>)
    requires Served(serve, s0, done) && serve(SinceAfter(s0, done)) != []
    ensures Served(serve, s0, done + [serve(SinceAfter(s0, done))])
    ensures SinceAfter(s0, done + [serve(SinceAfter(s0, done))])
            == Last(serve(SinceAfter(s0, done))).id + 1
  {
    var p := serve(SinceAfter(s0, done));
    assert (done + [p])[..|done|] == done;
  }

  /** What has been served, followed by the paging from where it stopped, is
      the whole paging from `s0`. */
  lemma {:induction false} ServedPrefix(serve: int -> seq<Record>, measure: int -> nat, s0: int,
                                        done: seq<seq<Record>>)
    requires Progressing(serve, measure) && Served(serve, s0, done)
    ensures done + Pages(serve, measure, SinceAfter(s0, done)) == Pages(serve, measure, s0)
    decreases |done|
  {
    if done == [] {
      assert done + Pages(serve, measure, s0) == Pages(serve, measure, s0);
    } else {
      var init := done[..|done| - 1];
      var p := Last(done);
      ServedPrefix(serve, measure, s0, init);
      PagesNext(serve, measure, SinceAfter(s0, init));
      ConcatAssoc(init, [p], Pages(serve, measure, Last(p).id + 1));
      assert init + [p] == done;
    }
  }

  /** Served pages that end where an empty page comes back are the whole
      paging: a loop that writes each page it is served and stops at the
      first empty one writes exactly `Pages`. */
  lemma ServedAll(serve: int -> seq<Record>, measure: int -> nat, s0: int, done: seq<seq<Record>>)
    requires Progressing(serve, measure) && Served(serve, s0, done)
    requires serve(SinceAfter(s0, done)) == []
    ensures done == Pages(serve, measure, s0)
  {
    ServedPrefix(serve, measure, s0, done);
    PagesEnd(serve, measure, SinceAfter(s0, done));
    assert done + [] == done;
  }
}

=== FILE: single.dfy ===
/** The single-fetch streams: `Account.sync` and `Everything.sync` (the
    departments, goals, shortcuts and triggers streams). One request, one page
    written, no bookmark and no state snapshot. */
module SingleFetch {
  import opened Values
  import opened Context
  import opened Log
  import opened Upstream

  /** Issue `req`, then write `page` (when the request succeeded). */
  method FetchAndWrite(t: Tap, id: string, req: Request, reply: Result<seq<Record>>)
    returns (t': Tap, err: Option<Error>)
    ensures StreamStep(t, t', id) && t'.state == t.state
    ensures err.None? <==> reply.Ok?
    ensures err.Some? ==> err.value == reply.error
    ensures reply.Ok? ==> Emitted(t'.log, id) == Emitted(t.log, id) + reply.value
    ensures forall i :: |t.log| <= i < |t'.log| ==> !t'.log[i].StateOut?
  {
    var more: seq<Event>;
    if reply.Err? {
      more := [Requested(req)];
      err := Some(reply.error);
    } else {
      more := [Requested(req), RecordsOut(id, reply.value)];
      err := None;
      EmittedAppend(t.log, more, id);
      assert more[..1] == [Requested(req)] && more[..1][..0] == [];
      assert Emitted(more[..1], id) == [];
      assert Emitted(more, id) == reply.value;
    }
    OwnedAppend(t.log, |t.log|, id, Marker(t.state), more);
    t' := Tap(t.state, t.log + more);
  }

  /** `Everything.sync`: the whole list the endpoint returns, as one page. */
  method SyncEverything(t: Tap, up: Upstream, id: string) returns (t': Tap, err: Option<Error>)
    ensures StreamStep(t, t', id) && t'.state == t.state
    ensures err.None? <==> FetchList(up, id).Ok?
    ensures err.Some? ==> err.value == FetchList(up, id).error
    ensures err.None? ==> Emitted(t'.log, id) == Emitted(t.log, id) + FetchList(up, id).value
    ensures forall i :: |t.log| <= i < |t'.log| ==> !t'.log[i].StateOut?
  {
    t', err := FetchAndWrite(t, id, FetchAll(id), FetchList(up, id));
  }

  /** `Account.sync`: the single account object, wrapped in a page of one. */
  method SyncAccount(t: Tap, up: Upstream) returns (t': Tap, err: Option<Error>)
    ensures StreamStep(t, t', "account") && t'.state == t.state
    ensures err.None? <==> FetchAccount(up).Ok?
    ensures err.Some? ==> err.value == FetchAccount(up).error
    ensures err.None? ==> Emitted(t'.log, "account") == Emitted(t.log, "account") + [up.account]
    ensures forall i :: |t.log| <= i < |t'.log| ==> !t'.log[i].StateOut?
  {
    var reply := match FetchAccount(up)
      case Ok(a) => Ok([a])
      case Err(e) => Err(e);
    t', err := FetchAndWrite(t, "account", FetchAll("account"), reply);
  }
}

=== FILE: streams.dfy ===
/** The stream table and the per-stream sync strategies other than chats:
    since_id paging for agents and bans, and the single-fetch streams. */
module Streams {
  import opened Values
  import opened Context
  import opened Log
  import opened Upstream
  import opened Paging

  datatype Kind = AccountKind | AgentsKind | BansKind | ChatsKind | EverythingKind

  datatype Stream = Stream(id: string, pk: seq<string>, kind: Kind)

  /** `all_streams`: the fixed order in which streams are synced. */
  const AllStreams: seq<Stream> := [
    Stream("account", ["account_key"], AccountKind),
    Stream("agents", ["id"], AgentsKind),
    Stream("bans", ["id"], BansKind),
    Stream("chats", ["id"], ChatsKind),
    Stream("departments", ["id"], EverythingKind),
    Stream("goals", ["id"], EverythingKind),
    Stream("shortcuts", ["name"], EverythingKind),
    Stream("triggers", ["id"], EverythingKind)
  ]

  datatype ReplicationMethod = FullTable | Incremental

  /** `replication_key`: only chats has one (two, in fact). */
  function ReplicationKeys(s: Stream): set<string> {
    if s.kind == ChatsKind then {"timestamp", "end_timestamp"} else {}
  }

  /** `forced_replication_method`. */
  function ForcedMethod(s: Stream): ReplicationMethod {
    if s.kind == ChatsKind then Incremental else FullTable
  }

  // ---------------------------------------------------------------------
  // since_id paging (Agents.sync, Bans.sync)

  datatype OffsetKind = Agents | Bans

  function OffsetStreamId(k: OffsetKind): string {
    match k
    case Agents => "agents"
    case Bans => "bans"
  }

  /** `[tap_stream_id, "offset", "id"]`. */
  function OffsetPath(k: OffsetKind): seq<string> {
    [OffsetStreamId(k), "offset", "id"]
  }

  /** `agents_page_limit` / `bans_page_limit`, 100 by default. */
  function PageLimit(cfg: Config, k: OffsetKind): int {
    match k
    case Agents => cfg.agentsPageLimit.GetOr(100)
    case Bans => cfg.bansPageLimit.GetOr(100)
  }

  /** `ctx.bookmark(path) or 0`. */
  function SinceOf(stored: Value): (v: Value)
    ensures Truthy(stored) ==> v == stored
    ensures !Truthy(stored) ==> v == Int(0)
  {
    if Truthy(stored) then stored else Int(0)
  }

  /** The bans page: the visitor bans followed by the ip-address bans, a
      missing list counting as empty. */
  function BansPageOf(reply: BansReply): (page: seq<Record>)
    ensures forall x :: x in page <==>
      (reply.visitor.Some? && x in reply.visitor.value) || (reply.ipAddress.Some? && x in reply.ipAddress.value)
  {
    reply.visitor.GetOr([]) + reply.ipAddress.GetOr([])
  }

  /** The bans page as the source builds it: the emptiness test reads both
      lists with a default, but the page itself is then rebuilt by indexing
      both keys, which fails when one of them is absent. */
  function BansPageAsWritten(reply: BansReply): Result<seq<Record>> {
    var probe := reply.visitor.GetOr([]) + reply.ipAddress.GetOr([]);
    if probe == [] then Ok([])
    else if reply.visitor.None? || reply.ipAddress.None? then Err(KeyError)
    else Ok(reply.visitor.value + reply.ipAddress.value)
  }

  /** A bans reply that carries ip-address bans but no `visitor` key: the
      source fails with KeyError, the corrected page holds the ip bans. */
  lemma BansMissingVisitorKey(x: Record)
    ensures BansPageAsWritten(BansReply(None, Some([x]))) == Err(KeyError)
    ensures BansPageOf(BansReply(None, Some([x]))) == [x]
  {
  }

  /** Whenever the source's page is well defined the corrected page agrees
      with it. */
  lemma BansPageAgrees(reply: BansReply)
    requires BansPageAsWritten(reply).Ok?
    ensures BansPageAsWritten(reply).value == BansPageOf(reply)
  {
  }

  /** The records the endpoint can still serve from `since` on. */
  function Dataset(up: Upstream, k: OffsetKind): seq<Record> {
    match k
    case Agents => up.agents
    case Bans => up.visitorBans + up.ipBans
  }

  function Remaining(up: Upstream, k: OffsetKind, since: int): nat {
    match k
    case Agents => |Above(up.agents, since)|
    case Bans => |Above(up.visitorBans, since)| + |Above(up.ipBans, since)|
  }

  /** One since_id request and the page it yields. */
  function OffsetPage(up: Upstream, k: OffsetKind, since: Value, limit: int): (r: Result<seq<Record>>)
    ensures r.Ok? ==> since.Int? && r.value == PageAt(up, k, since.i, limit)
  {
    match k
    case Agents => AgentsPage(up, since, limit)
    case Bans =>
      match BansPage(up, since, limit)
      case Err(e) => Err(e)
      case Ok(reply) => Ok(BansPageOf(reply))
  }

  /** Advancing since_id past a served record strictly shrinks what remains:
      the paging loop terminates on every finite dataset. */
  lemma RemainingShrinks(up: Upstream, k: OffsetKind, since: int, x: Record)
    requires x in Dataset(up, k) && since <= x.id
    ensures Remaining(up, k, x.id + 1) < Remaining(up, k, since)
  {
    match k
    case Agents =>
      AboveShrinks(up.agents, since, x.id + 1, x);
    case Bans =>
      if x in up.visitorBans {
        AboveShrinks(up.visitorBans, since, x.id + 1, x);
        AboveMonotone(up.ipBans, since, x.id + 1);
      } else {
        AboveShrinks(up.ipBans, since, x.id + 1, x);
        AboveMonotone(up.visitorBans, since, x.id + 1);
      }
  }

  /** The page served for `since`. */
  function PageAt(up: Upstream, k: OffsetKind, since: int, limit: int): seq<Record> {
    match k
    case Agents => FirstAbove(up.agents, since, limit)
    case Bans => FirstAbove(up.visitorBans, since, limit) + FirstAbove(up.ipBans, since, limit)
  }

  /** A page holds only records of the dataset at or above `since`. */
  lemma PageAtMembers(up: Upstream, k: OffsetKind, since: int, limit: int, x: Record)
    requires x in PageAt(up, k, since, limit)
    ensures x in Dataset(up, k) && x.id >= since
  {
    FirstAboveMembers(up.agents, since, limit);
    FirstAboveMembers(up.visitorBans, since, limit);
    FirstAboveMembers(up.ipBans, since, limit);
  }

  /** The endpoint as a since_id server. */
  function Serve(up: Upstream, k: OffsetKind, limit: int): int -> seq<Record> {
    s => PageAt(up, k, s, limit)
  }

  function Measure(up: Upstream, k: OffsetKind): int -> nat {
    s => Remaining(up, k, s)
  }

  /** Asking from a page's last id + 1 leaves strictly less to serve. */
  lemma PageShrinks(up: Upstream, k: OffsetKind, since: int, limit: int)
    requires PageAt(up, k, since, limit) != []
    ensures Remaining(up, k, Last(PageAt(up, k, since, limit)).id + 1) < Remaining(up, k, since)
  {
    PageAtMembers(up, k, since, limit, Last(PageAt(up, k, since, limit)));
    RemainingShrinks(up, k, since, Last(PageAt(up, k, since, limit)));
  }

  /** since_id paging against the endpoint terminates on every dataset. */
  lemma ServeProgresses(up: Upstream, k: OffsetKind, limit: int)
    ensures Progressing(Serve(up, k, limit), Measure(up, k))
  {
    forall s | Serve(up, k, limit)(s) != []
      ensures Measure(up, k)(Last(Serve(up, k, limit)(s)).id + 1) < Measure(up, k)(s)
    {
      PageShrinks(up, k, s, limit);
    }
  }

  /** The endpoint serves only records at or above the since_id asked for. */
  lemma ServeHonest(up: Upstream, k: OffsetKind, limit: int)
    ensures Honest(Serve(up, k, limit))
  {
    forall s, x | x in Serve(up, k, limit)(s) ensures x.id >= s {
      PageAtMembers(up, k, s, limit, x);
    }
  }

  /** Reference definition of since_id paging against the endpoint: the
      pages served from `since` on, each request asking from the previous
      page's last id + 1, until a page comes back empty. */
  function OffsetPages(up: Upstream, k: OffsetKind, since: int, limit: int): seq<seq<Record>> {
    ServeProgresses(up, k, limit);
    Pages(Serve(up, k, limit), Measure(up, k), since)
  }

  /** Every written page is non-empty. */
  lemma OffsetPagesNonEmpty(up: Upstream, k: OffsetKind, since: int, limit: int)
    ensures forall p :: p in OffsetPages(up, k, since, limit) ==> p != []
  {
    ServeProgresses(up, k, limit);
    PagesNonEmpty(Serve(up, k, limit), Measure(up, k), since);
  }

  /** Every written record is at or above the since_id that started the
      paging. */
  lemma OffsetPagesAbove(up: Upstream, k: OffsetKind, since: int, limit: int)
    ensures forall p, x :: p in OffsetPages(up, k, since, limit) && x in p ==> x.id >= since
  {
    ServeProgresses(up, k, limit);
    ServeHonest(up, k, limit);
    PagesAbove(Serve(up, k, limit), Measure(up, k), since);
  }

  function Flatten(pages: seq<seq<Record>>): seq<Record> {
    if pages == [] then [] else pages[0] + Flatten(pages[1..])
  }

  /** The ids of an ascending slice are bounded by its last one. */
  lemma SliceBounded(data: seq<Record>, a: int, b: int)
    requires Ascending(data) && 0 <= a < b <= |data|
    ensures forall x :: x in data[a..b] ==> x.id <= data[b - 1].id
  {
    forall x | x in data[a..b] ensures x.id <= data[b - 1].id {
      var m :| a <= m < b && data[m] == x;
      if m < b - 1 {
        AscendingPairs(data, m, b - 1);
      }
    }
  }

  /** Paging stops at the first empty page. */
  lemma OffsetPagesEnd(up: Upstream, k: OffsetKind, since: int, limit: int)
    requires PageAt(up, k, since, limit) == []
    ensures OffsetPages(up, k, since, limit) == []
  {
    ServeProgresses(up, k, limit);
    PagesEnd(Serve(up, k, limit), Measure(up, k), since);
  }

  /** A non-empty page is followed by the paging from its last id + 1. */
  lemma OffsetPagesNext(up: Upstream, k: OffsetKind, since: int, limit: int)
    requires PageAt(up, k, since, limit) != []
    ensures OffsetPages(up, k, since, limit)
            == [PageAt(up, k, since, limit)] + OffsetPages(up, k, Last(PageAt(up, k, since, limit)).id + 1, limit)
  {
    ServeProgresses(up, k, limit);
    PagesNext(Serve(up, k, limit), Measure(up, k), since);
  }

  lemma FlattenCons(page: seq<Record>, rest: seq<seq<Record>>)
    ensures Flatten([page] + rest) == page + Flatten(rest)
  {
    assert ([page] + rest)[1..] == rest;
  }

  /** An agents page is a prefix of what `since` serves, and the next
      request serves the rest. */
  lemma AgentsPageStep(up: Upstream, since: int, limit: int)
    requires Ascending(up.agents)
    requires PageAt(up, Agents, since, limit) != []
    ensures var a := Above(up.agents, since);
      var page := PageAt(up, Agents, since, limit);
      && |page| == Min(limit, |a|)
      && page == a[..|page|]
      && Above(up.agents, Last(page).id + 1) == a[|page|..]
  {
    var a := Above(up.agents, since);
    var page := PageAt(up, Agents, since, limit);
    FirstAboveIsTake(up.agents, since, limit);
    assert page == a[..|page|];
    assert Last(page) == a[|page| - 1];
    AboveAfter(up.agents, since, |page|);
  }

  /** `a` cut into consecutive chunks of `limit` records (the last one
      possibly shorter). */
  function Chunks(a: seq<Record>, limit: int): seq<seq<Record>>
    requires limit > 0
    decreases |a|
  {
    if a == [] then [] else
      var m := Min(limit, |a|);
      [a[..m]] + Chunks(a[m..], limit)
  }

  /** Agents paging on an ascending dataset with a positive limit serves
      what the starting since_id selects, cut into chunks of `limit`. */
  lemma {:induction false} AgentsPagesAreChunks(up: Upstream, since: int, limit: int)
    requires Ascending(up.agents) && limit > 0
    ensures OffsetPages(up, Agents, since, limit) == Chunks(Above(up.agents, since), limit)
    decreases Remaining(up, Agents, since)
  {
    var page := PageAt(up, Agents, since, limit);
    if page != [] {
      PageAtMembers(up, Agents, since, limit, Last(page));
      RemainingShrinks(up, Agents, since, Last(page));
      AgentsPagesAreChunks(up, Last(page).id + 1, limit);
      AgentsChunkNext(up, since, limit);
    } else {
      OffsetPagesEnd(up, Agents, since, limit);
      FirstAboveIsTake(up.agents, since, limit);
    }
  }

  /** The inductive step: if paging from after the first page yields the
      chunks of the rest, paging from `since` yields the chunks of all. */
  lemma AgentsChunkNext(up: Upstream, since: int, limit: int)
    requires Ascending(up.agents) && limit > 0
    requires PageAt(up, Agents, since, limit) != []
    requires var next := Last(PageAt(up, Agents, since, limit)).id + 1;
      OffsetPages(up, Agents, next, limit) == Chunks(Above(up.agents, next), limit)
    ensures OffsetPages(up, Agents, since, limit) == Chunks(Above(up.agents, since), limit)
  {
    var a := Above(up.agents, since);
    var page := PageAt(up, Agents, since, limit);
    OffsetPagesNext(up, Agents, since, limit);
    AgentsPageStep(up, since, limit);
    ChunksStep(a, page, limit);
  }

  lemma ChunksStep(a: seq<Record>, page: seq<Record>, limit: int)
    requires limit > 0 && page != []
    requires |page| <= |a| && page == a[..|page|] && |page| == Min(limit, |a|)
    ensures Chunks(a, limit) == [page] + Chunks(a[|page|..], limit)
  {
  }

  lemma {:induction false} FlattenChunks(a: seq<Record>, limit: int)
    requires limit > 0
    ensures Flatten(Chunks(a, limit)) == a
    decreases |a|
  {
    if a != [] {
      var m := Min(limit, |a|);
      FlattenChunks(a[m..], limit);
      FlattenCons(a[..m], Chunks(a[m..], limit));
      assert a[..m] + a[m..] == a;
    }
  }

  /** Every record of a page has a smaller id than every record of any
      later page. */
  predicate PagesAscend(pages: seq<seq<Record>>) {
    forall i, j, x, y :: 0 <= i < j < |pages| && x in pages[i] && y in pages[j] ==> x.id < y.id
  }

  /** Each chunk of an ascending sequence lies strictly below every later
      chunk. */
  lemma {:induction false} ChunksDisjoint(a: seq<Record>, limit: int)
    requires Ascending(a) && limit > 0
    ensures PagesAscend(Chunks(a, limit))
    decreases |a|
  {
    if a != [] {
      var m := Min(limit, |a|);
      var cs := Chunks(a, limit);
      var rest := Chunks(a[m..], limit);
      assert cs == [a[..m]] + rest;
      AscendingSuffix(a, m);
      ChunksDisjoint(a[m..], limit);
      ChunksWithin(a[m..], limit);
      forall i, j, x: Record, y: Record | 0 <= i < j < |cs| && x in cs[i] && y in cs[j]
        ensures x.id < y.id
      {
        assert cs[j] == rest[j - 1] && rest[j - 1] in rest;
        if i == 0 {
          SplitBelow(a, m, x, y);
        } else {
          assert cs[i] == rest[i - 1];
        }
      }
    }
  }

  /** In an ascending sequence everything before position `m` is below
      everything from `m` on. */
  lemma SplitBelow(a: seq<Record>, m: nat, x: Record, y: Record)
    requires Ascending(a) && m <= |a|
    requires x in a[..m] && y in a[m..]
    ensures x.id < y.id
  {
    var p :| 0 <= p < m && a[..m][p] == x;
    var q :| 0 <= q < |a[m..]| && a[m..][q] == y;
    assert a[m..][q] == a[m + q] && a[..m][p] == a[p];
    AscendingPairs(a, p, m + q);
  }

  /** Every chunk's records come from the chunked sequence. */
  lemma {:induction false} ChunksWithin(a: seq<Record>, limit: int)
    requires limit > 0
    ensures forall c, x :: c in Chunks(a, limit) && x in c ==> x in a
    decreases |a|
  {
    if a != [] {
      var m := Min(limit, |a|);
      ChunksWithin(a[m..], limit);
    }
  }

  /** Agents paging on an ascending dataset with a positive limit visits
      every record at or above the starting since_id exactly once, in order. */
  lemma AgentsPagesCover(up: Upstream, since: int, limit: int)
    requires Ascending(up.agents) && limit > 0
    ensures Flatten(OffsetPages(up, Agents, since, limit)) == Above(up.agents, since)
  {
    AgentsPagesAreChunks(up, since, limit);
    FlattenChunks(Above(up.agents, since), limit);
  }

  /** On an ascending dataset every agents page lies strictly below the
      pages after it, so no record is served twice. */
  lemma AgentsPagesDisjoint(up: Upstream, since: int, limit: int)
    requires Ascending(up.agents) && limit > 0
    ensures PagesAscend(OffsetPages(up, Agents, since, limit))
  {
    AgentsPagesAreChunks(up, since, limit);
    AboveAscending(up.agents, since);
    ChunksDisjoint(Above(up.agents, since), limit);
  }

  /** Why coverage is stated for agents only: one since_id pages both bans
      lists, and the next since_id follows the last ip-address ban. With
      visitor bans 1 and 2, ip-address ban 10 and a limit of 1, the only page
      is `[1, 10]`, and visitor ban 2 is never written. */
  lemma BansPagingSkips()
    ensures var b1, b2, b10 := Record(1, map[]), Record(2, map[]), Record(10, map[]);
      var up := Upstream([], [b1, b2], [b10], Record(0, map[]), map[], [], map[], map[], map[]);
      && b2 in Dataset(up, Bans)
      && OffsetPages(up, Bans, 0, 1) == [[b1, b10]]
      && forall p :: p in OffsetPages(up, Bans, 0, 1) ==> b2 !in p
  {
    var b1, b2, b10 := Record(1, map[]), Record(2, map[]), Record(10, map[]);
    var up := Upstream([], [b1, b2], [b10], Record(0, map[]), map[], [], map[], map[], map[]);
    assert FirstAbove([b2], 0, 0) == [] && FirstAbove([b1, b2], 0, 1) == [b1];
    assert FirstAbove([b10], 0, 1) == [b10];
    assert PageAt(up, Bans, 0, 1) == [b1, b10];
    OffsetPagesNext(up, Bans, 0, 1);
    assert [b1, b2][1..] == [b2] && [b2][1..] == [] && [b10][1..] == [];
    assert FirstAbove([b2], 11, 1) == [] && FirstAbove([b1, b2], 11, 1) == [];
    assert FirstAbove([b10], 11, 1) == [];
    OffsetPagesEnd(up, Bans, 11, 1);
  }

  /** Every page is followed at once by a snapshot whose offset bookmark is
      the page's last id + 1. */
  predicate PagesCheckpointed(log: seq<Event>, from: nat, path: seq<string>) {
    forall i :: from <= i < |log| && log[i].RecordsOut? ==>
      && log[i].records != []
      && i + 1 < |log|
      && log[i + 1].StateOut?
      && GetBookmark(log[i + 1].state, path) == Int(Last(log[i].records).id + 1)
  }

  /** Appending a request, a page and a snapshot carrying the page's
      checkpoint keeps the log checkpointed and adds that page. */
  lemma {:induction false} PagesAppendPage(log: seq<Event>, from: nat, id: string, path: seq<string>,
                                           req: Request, page: seq<Record>, st: State)
    requires from <= |log| && PagesCheckpointed(log, from, path)
    requires page != [] && GetBookmark(st, path) == Int(Last(page).id + 1)
    ensures var log' := log + [Requested(req), RecordsOut(id, page), StateOut(st)];
      && PagesCheckpointed(log', from, path)
      && log'[from..] == log[from..] + [Requested(req), RecordsOut(id, page), StateOut(st)]
      && PagesOf(log'[from..], id) == PagesOf(log[from..], id) + [page]
  {
    var more := [Requested(req), RecordsOut(id, page), StateOut(st)];
    var log' := log + more;
    forall i | from <= i < |log'| && log'[i].RecordsOut?
      ensures log'[i].records != [] && i + 1 < |log'| && log'[i + 1].StateOut?
      ensures GetBookmark(log'[i + 1].state, path) == Int(Last(log'[i].records).id + 1)
    {
      if i < |log| {
        assert log'[i] == log[i] && log'[i + 1] == log[i + 1];
      } else {
        assert i == |log| + 1;
      }
    }
    assert log'[from..] == log[from..] + more;
    PagesOfStep(log[from..], id, req, page, st);
  }

  /** Appending an event that is not a page keeps the log checkpointed and
      adds no page. */
  lemma PagesAppendQuiet(log: seq<Event>, from: nat, id: string, path: seq<string>, e: Event)
    requires from <= |log| && PagesCheckpointed(log, from, path)
    requires !e.RecordsOut?
    ensures var log' := log + [e];
      && PagesCheckpointed(log', from, path)
      && log'[from..] == log[from..] + [e]
      && PagesOf(log'[from..], id) == PagesOf(log[from..], id)
  {
    var log' := log + [e];
    forall i | from <= i < |log'| && log'[i].RecordsOut?
      ensures log'[i].records != [] && i + 1 < |log'| && log'[i + 1].StateOut?
      ensures GetBookmark(log'[i + 1].state, path) == Int(Last(log'[i].records).id + 1)
    {
      assert log'[i] == log[i] && log'[i + 1] == log[i + 1];
    }
    assert log'[from..] == log[from..] + [e];
    PagesOfQuiet(log[from..], id, e);
  }

  lemma PagesOfStep(a: seq<Event>, id: string, req: Request, page: seq<Record>, st: State)
    ensures PagesOf(a + [Requested(req), RecordsOut(id, page), StateOut(st)], id) == PagesOf(a, id) + [page]
  {
    var b := [Requested(req), RecordsOut(id, page), StateOut(st)];
    PagesOfAppend(a, b, id);
    var b2 := [Requested(req), RecordsOut(id, page)];
    var b1 := [Requested(req)];
    assert b[..|b| - 1] == b2 && b2[..|b2| - 1] == b1 && b1[..|b1| - 1] == [];
    assert PagesOf(b1, id) == [];
    assert PagesOf(b2, id) == [page];
    assert PagesOf(b, id) == [page];
  }

  lemma PagesOfQuiet(a: seq<Event>, id: string, e: Event)
    requires !e.RecordsOut?
    ensures PagesOf(a + [e], id) == PagesOf(a, id)
  {
    assert (a + [e])[..|a|] == a;
  }

  /** `ctx.set_bookmark(path, v)` followed by `ctx.write_state()`, on a
      path the state can hold. */
  method Checkpoint(t: Tap, path: seq<string>, v: Value) returns (t': Tap)
    requires path != [] && Walkable(Obj(t.state), BookmarkPath(path))
    ensures t'.log == t.log + [StateOut(t'.state)]
    ensures GetBookmark(t'.state, path) == v
    ensures Marker(t'.state) == Marker(t.state)
    ensures Walkable(Obj(t'.state), BookmarkPath(path))
    ensures forall q :: Diverges(q, path) ==> GetBookmark(t'.state, q) == GetBookmark(t.state, q)
  {
    var written := SetBookmark(t.state, path, Plain(v));
    t' := WriteState(Tap(written.value, t.log));
  }

  /** Log a request that brings no page. */
  method LogRequest(tap: Tap, req: Request, ghost from: nat, k: OffsetKind, ghost m: Value)
    returns (tap': Tap)
    requires from <= |tap.log| && Owned(tap.log, from, OffsetStreamId(k), m)
    requires PagesCheckpointed(tap.log, from, OffsetPath(k))
    ensures tap'.state == tap.state && tap.log <= tap'.log
    ensures Owned(tap'.log, from, OffsetStreamId(k), m)
    ensures PagesCheckpointed(tap'.log, from, OffsetPath(k))
    ensures PagesOf(tap'.log[from..], OffsetStreamId(k)) == PagesOf(tap.log[from..], OffsetStreamId(k))
  {
    OwnedAppend(tap.log, from, OffsetStreamId(k), m, [Requested(req)]);
    PagesAppendQuiet(tap.log, from, OffsetStreamId(k), OffsetPath(k), Requested(req));
    tap' := Emit(tap, Requested(req));
  }

  /** Log a request, the page it brought, and the checkpoint after it: the
      bookmark moves to the page's last id + 1 and the state is flushed. */
  method LogPage(tap: Tap, req: Request, page: seq<Record>, ghost from: nat, k: OffsetKind, ghost m: Value)
    returns (tap': Tap)
    requires from <= |tap.log| && page != []
    requires Marker(tap.state) == m && Owned(tap.log, from, OffsetStreamId(k), m)
    requires Walkable(Obj(tap.state), BookmarkPath(OffsetPath(k)))
    requires PagesCheckpointed(tap.log, from, OffsetPath(k))
    ensures tap.log <= tap'.log && Marker(tap'.state) == m && Owned(tap'.log, from, OffsetStreamId(k), m)
    ensures Walkable(Obj(tap'.state), BookmarkPath(OffsetPath(k)))
    ensures GetBookmark(tap'.state, OffsetPath(k)) == Int(Last(page).id + 1)
    ensures PagesCheckpointed(tap'.log, from, OffsetPath(k))
    ensures PagesOf(tap'.log[from..], OffsetStreamId(k)) == PagesOf(tap.log[from..], OffsetStreamId(k)) + [page]
  {
    var id := OffsetStreamId(k);
    var out := Tap(tap.state, tap.log + [Requested(req), RecordsOut(id, page)]);
    tap' := Checkpoint(out, OffsetPath(k), Int(Last(page).id + 1));
    assert tap'.log == tap.log + [Requested(req), RecordsOut(id, page), StateOut(tap'.state)];
    OwnedAppend(tap.log, from, id, m, [Requested(req), RecordsOut(id, page), StateOut(tap'.state)]);
    PagesAppendPage(tap.log, from, id, OffsetPath(k), req, page, tap'.state);
  }

  /** The since_id endpoint of stream `k` as the connector calls it. */
  function Endpoint(up: Upstream, k: OffsetKind, limit: int): Value -> Result<seq<Record>> {
    v => OffsetPage(up, k, v, limit)
  }

  /** `request` answers every numeric since_id it accepts with the page
      `serve` gives for it. */
  ghost predicate Answers(request: Value -> Result<seq<Record>>, serve: int -> seq<Record>) {
    forall s :: request(Int(s)).Ok? ==> request(Int(s)).value == serve(s)
  }

  lemma EndpointAnswers(up: Upstream, k: OffsetKind, limit: int)
    ensures Answers(Endpoint(up, k, limit), Serve(up, k, limit))
  {
  }

  /** One iteration of the since_id loop: request the page for `since`;
      on a non-empty page write it, advance the bookmark to its last id + 1
      and flush. `next` is the new since_id, or `None` once the page comes
      back empty. */
  method OffsetStep(tap: Tap, request: Value -> Result<seq<Record>>, k: OffsetKind, since: Value, limit: int,
                    ghost from: nat, ghost m: Value)
    returns (tap': Tap, next: Option<int>, err: Option<Error>)
    requires from <= |tap.log|
    requires Marker(tap.state) == m && Owned(tap.log, from, OffsetStreamId(k), m)
    requires Walkable(Obj(tap.state), BookmarkPath(OffsetPath(k)))
    requires PagesCheckpointed(tap.log, from, OffsetPath(k))
    ensures tap.log <= tap'.log && Marker(tap'.state) == m && Owned(tap'.log, from, OffsetStreamId(k), m)
    ensures Walkable(Obj(tap'.state), BookmarkPath(OffsetPath(k)))
    ensures PagesCheckpointed(tap'.log, from, OffsetPath(k))
    ensures err.None? <==> request(since).Ok?
    ensures err.None? && next.None? ==> (
      && tap'.state == tap.state
      && request(since).value == []
      && PagesOf(tap'.log[from..], OffsetStreamId(k)) == PagesOf(tap.log[from..], OffsetStreamId(k)))
    ensures err.None? && next.Some? ==> (
      && request(since).value != []
      && next.value == Last(request(since).value).id + 1
      && PagesOf(tap'.log[from..], OffsetStreamId(k))
         == PagesOf(tap.log[from..], OffsetStreamId(k)) + [request(since).value])
  {
    var req := ListPage(OffsetStreamId(k), since, limit);
    var reply := request(since);
    if reply.Err? {
      tap' := LogRequest(tap, req, from, k, m);
      return tap', None, Some(reply.error);
    }
    var page := reply.value;
    if page == [] {
      tap' := LogRequest(tap, req, from, k, m);
      return tap', None, None;
    }
    tap' := LogPage(tap, req, page, from, k, m);
    next := Some(Last(page).id + 1);
    err := None;
  }

  /** `Agents.sync` and `Bans.sync`: page through the endpoint from the stored
      since_id (0 when none), write each non-empty page, advance since_id and
      the bookmark to its last id + 1 and flush, and on the first empty page
      clear the bookmark to `None` and flush. The pages written are exactly
      those of the reference paging. */
  method SyncOffset(t: Tap, up: Upstream, cfg: Config, k: OffsetKind) returns (t': Tap, err: Option<Error>)
    ensures StreamStep(t, t', OffsetStreamId(k))
    ensures PagesCheckpointed(t'.log, |t.log|, OffsetPath(k))
    ensures err.None? ==> (
      && GetBookmark(t'.state, OffsetPath(k)) == Null
      && |t'.log| > |t.log| && Last(t'.log) == StateOut(t'.state))
    ensures err.None? ==> (
      && SinceOf(GetBookmark(t.state, OffsetPath(k))).Int?
      && PagesOf(t'.log[|t.log|..], OffsetStreamId(k))
         == OffsetPages(up, k, SinceOf(GetBookmark(t.state, OffsetPath(k))).i, PageLimit(cfg, k)))
  {
    var read := Bookmark(t.state, OffsetPath(k));
    if read.Err? {
      return t, Some(read.error);
    }
    WalkTwice(Obj(t.state), BookmarkPath(OffsetPath(k)));
    var tap := Tap(read.value.0, t.log);
    t', err := SyncFrom(tap, up, k, SinceOf(read.value.1), PageLimit(cfg, k), Marker(t.state));
  }

  /** Paging from `since`, then clearing the bookmark once the pages run
      out. */
  method SyncFrom(tap: Tap, up: Upstream, k: OffsetKind, since: Value, limit: int, ghost m: Value)
    returns (t': Tap, err: Option<Error>)
    requires Marker(tap.state) == m
    requires Walkable(Obj(tap.state), BookmarkPath(OffsetPath(k)))
    ensures tap.log <= t'.log && Marker(t'.state) == m && Owned(t'.log, |tap.log|, OffsetStreamId(k), m)
    ensures PagesCheckpointed(t'.log, |tap.log|, OffsetPath(k))
    ensures err.None? ==> (
      && GetBookmark(t'.state, OffsetPath(k)) == Null
      && |t'.log| > |tap.log| && Last(t'.log) == StateOut(t'.state))
    ensures err.None? ==> (
      && since.Int?
      && PagesOf(t'.log[|tap.log|..], OffsetStreamId(k)) == OffsetPages(up, k, since.i, limit))
  {
    var request := Endpoint(up, k, limit);
    if !since.Int? {
      // the endpoint rejects a since_id that is not a number
      var next;
      assert Owned(tap.log, |tap.log|, OffsetStreamId(k), m);
      t', next, err := OffsetStep(tap, request, k, since, limit, |tap.log|, m);
      return t', err;
    }
    ServeProgresses(up, k, limit);
    EndpointAnswers(up, k, limit);
    var paged;
    paged, err := PageAll(tap, request, Serve(up, k, limit), Measure(up, k), k, since.i, limit, m);
    if err.Some? {
      return paged, err;
    }
    t' := Checkpoint(paged, OffsetPath(k), Null);
    OwnedAppend(paged.log, |tap.log|, OffsetStreamId(k), m, [StateOut(t'.state)]);
    PagesAppendQuiet(paged.log, |tap.log|, OffsetStreamId(k), OffsetPath(k), StateOut(t'.state));
  }

  /** One turn of the since_id loop, with its account of the pages written
      so far: `done` are the pages served from `since0` up to `since`. */
  method PageStep(tap: Tap, request: Value -> Result<seq<Record>>, serve: int -> seq<Record>,
                  measure: int -> nat, k: OffsetKind, since0: int, since: int, limit: int,
                  ghost done: seq<seq<Record>>, ghost from: nat, ghost m: Value)
    returns (tap': Tap, next: Option<int>, err: Option<Error>, ghost done': seq<seq<Record>>)
    requires Answers(request, serve) && Progressing(serve, measure)
    requires from <= |tap.log|
    requires Marker(tap.state) == m && Owned(tap.log, from, OffsetStreamId(k), m)
    requires Walkable(Obj(tap.state), BookmarkPath(OffsetPath(k)))
    requires PagesCheckpointed(tap.log, from, OffsetPath(k))
    requires Served(serve, since0, done) && since == SinceAfter(since0, done)
    requires PagesOf(tap.log[from..], OffsetStreamId(k)) == done
    ensures tap.log <= tap'.log && Marker(tap'.state) == m && Owned(tap'.log, from, OffsetStreamId(k), m)
    ensures Walkable(Obj(tap'.state), BookmarkPath(OffsetPath(k)))
    ensures PagesCheckpointed(tap'.log, from, OffsetPath(k))
    ensures err.None? && next.None? ==>
      PagesOf(tap'.log[from..], OffsetStreamId(k)) == Pages(serve, measure, since0)
    ensures err.None? && next.Some? ==> (
      && Served(serve, since0, done') && next.value == SinceAfter(since0, done')
      && PagesOf(tap'.log[from..], OffsetStreamId(k)) == done'
      && measure(next.value) < measure(since))
  {
    tap', next, err := OffsetStep(tap, request, k, Int(since), limit, from, m);
    done' := done;
    if err.Some? {
      return;
    }
    if next.None? {
      ServedAll(serve, measure, since0, done);
      return;
    }
    ServedSnoc(serve, since0, done);
    done' := done + [serve(since)];
  }

  /** The since_id loop: request pages from `since0` on until one comes back
      empty or a request fails. Against an endpoint that answers with
      `serve`, the pages written are `Pages(serve, measure, since0)`. */
  method PageAll(tap0: Tap, request: Value -> Result<seq<Record>>, serve: int -> seq<Record>,
                 measure: int -> nat, k: OffsetKind, since0: int, limit: int, ghost m: Value)
    returns (tap: Tap, err: Option<Error>)
    requires Answers(request, serve) && Progressing(serve, measure)
    requires Marker(tap0.state) == m
    requires Walkable(Obj(tap0.state), BookmarkPath(OffsetPath(k)))
    ensures tap0.log <= tap.log && Marker(tap.state) == m && Owned(tap.log, |tap0.log|, OffsetStreamId(k), m)
    ensures Walkable(Obj(tap.state), BookmarkPath(OffsetPath(k)))
    ensures PagesCheckpointed(tap.log, |tap0.log|, OffsetPath(k))
    ensures err.None? ==>
      PagesOf(tap.log[|tap0.log|..], OffsetStreamId(k)) == Pages(serve, measure, since0)
  {
    ghost var from := |tap0.log|;
    var since := since0;
    tap := tap0;
    ghost var done: seq<seq<Record>> := [];
    assert tap.log[from..] == [];
    while true
      invariant tap0.log <= tap.log
      invariant Marker(tap.state) == m && Owned(tap.log, from, OffsetStreamId(k), m)
      invariant Walkable(Obj(tap.state), BookmarkPath(OffsetPath(k)))
      invariant PagesCheckpointed(tap.log, from, OffsetPath(k))
      invariant Served(serve, since0, done) && since == SinceAfter(since0, done)
      invariant PagesOf(tap.log[from..], OffsetStreamId(k)) == done
      decreases measure(since)
    {
      var next, e;
      tap, next, e, done := PageStep(tap, request, serve, measure, k, since0, since, limit, done, from, m);
      if e.Some? {
        return tap, e;
      }
      if next.None? {
        break;
      }
      since := next.value;
    }
    err := None;
  }
}

=== FILE: sync.dfy ===
/** The run orchestrator (`sync`): where an interrupted run resumes, which
    streams a run syncs and in what order, and the `currently_syncing` marker
    kept in the state around each stream's sync. */
module Sync {
  import opened Values
  import opened Context
  import opened Log
  import opened Upstream
  import opened Streams
  import SingleFetch
  import Chats

  // ---------------------------------------------------------------------
  // Resume index and stream selection

  /** A catalog stream with the value of its top-level `selected` metadata
      (absent metadata reads as `None`). */
  datatype CatalogEntry = CatalogEntry(id: string, selected: Value)

  /** `is_selected`. */
  predicate IsSelected(e: CatalogEntry) {
    Truthy(e.selected)
  }

  /** `stream_ids_to_sync`. */
  function SelectedIds(catalog: seq<CatalogEntry>): set<string> {
    set e | e in catalog && IsSelected(e) :: e.id
  }

  function Ids(ss: seq<Stream>): (r: seq<string>)
    ensures |r| == |ss|
    ensures forall k :: 0 <= k < |ss| ==> r[k] == ss[k].id
  {
    if ss == [] then [] else Ids(ss[..|ss| - 1]) + [Last(ss).id]
  }

  /** The ids in `all_streams` order. */
  const StreamIds: seq<string> := Ids(AllStreams)

  /** No two streams share an id. */
  lemma StreamIdsDistinct()
    ensures forall i, j :: 0 <= i < j < |AllStreams| ==> AllStreams[i].id != AllStreams[j].id
    ensures forall i :: 0 <= i < |AllStreams| ==> AllStreams[i].id != []
  {
  }

  /** `list.index`: the position of the first occurrence, and `ValueError`
      when there is none. */
  function IndexOf(xs: seq<string>, x: string): (r: Result<nat>)
    ensures r.Ok? <==> x in xs
    ensures r.Ok? ==> r.value < |xs| && xs[r.value] == x && x !in xs[..r.value]
    ensures r.Err? ==> r.error == ValueError
  {
    if xs == [] then Err(ValueError)
    else if xs[0] == x then Ok(0)
    else
      match IndexOf(xs[1..], x)
      case Ok(k) =>
        assert xs[..k + 1] == [xs[0]] + xs[1..][..k];
        Ok(k + 1)
      case Err(e) => Err(e)
  }

  /** The resume index: the position in the stream order of the stream named
      by `currently_syncing`, or 0 when that is unset or falsy. A marker that
      names no stream is a `ValueError` from `list.index`. */
  function StartIndex(s: State): (r: Result<nat>)
    ensures !Truthy(Marker(s)) ==> r == Ok(0)
    ensures Truthy(Marker(s)) ==> (r.Ok? <==> Marker(s).Str? && Marker(s).s in StreamIds)
    ensures Truthy(Marker(s)) && r.Ok? ==> r.value < |AllStreams| && AllStreams[r.value].id == Marker(s).s
    ensures r.Ok? ==> r.value <= |AllStreams|
    ensures r.Err? ==> r.error == ValueError
  {
    var cs := Marker(s);
    if !Truthy(cs) then Ok(0)
    else if cs.Str? then IndexOf(StreamIds, cs.s)
    else Err(ValueError)
  }

  /** The resume index as the code spells it: `all_stream_ids` is looked up
      on the streams module, which defines no such name, so any truthy
      marker raises `AttributeError` before the index is computed. */
  function StartIndexAsWritten(s: State): (r: Result<nat>)
    ensures r.Ok? <==> !Truthy(Marker(s))
  {
    if Truthy(Marker(s)) then Err(AttributeError) else Ok(0)
  }

  /** The state an interrupted run leaves behind cannot be resumed as
      written, while the intended lookup resumes at chats. */
  lemma ResumeFailsAsWritten()
    ensures var s := map["currently_syncing" := Str("chats")];
      StartIndexAsWritten(s) == Err(AttributeError) && StartIndex(s) == Ok(3)
  {
    var s := map["currently_syncing" := Str("chats")];
    ResumeAt(s, [], 3);
  }

  /** The streams a run syncs: `all_streams[start_idx:]` restricted to the
      selected ids. */
  function ToSync(catalog: seq<CatalogEntry>, start: nat): seq<Stream> {
    Keep(if start <= |AllStreams| then AllStreams[start..] else [], SelectedIds(catalog))
  }

  /** The list comprehension's filter. */
  function Keep(ss: seq<Stream>, sel: set<string>): (r: seq<Stream>)
    ensures forall s :: s in r <==> s in ss && s.id in sel
  {
    if ss == [] then []
    else (if ss[0].id in sel then [ss[0]] else []) + Keep(ss[1..], sel)
  }

  /** The filter keeps the order of the stream list. */
  lemma {:induction false} KeepOrdered(ss: seq<Stream>, sel: set<string>)
    ensures Subseq(Keep(ss, sel), ss)
  {
    if ss != [] {
      KeepOrdered(ss[1..], sel);
      if ss[0].id !in sel {
        assert Keep(ss, sel) == Keep(ss[1..], sel);
        SubseqSkip(Keep(ss[1..], sel), ss);
      } else {
        assert Keep(ss, sel)[1..] == Keep(ss[1..], sel);
      }
    }
  }

  /** A run syncs exactly the selected streams from the resume index on, in
      the fixed order. */
  lemma ToSyncExact(catalog: seq<CatalogEntry>, start: nat)
    requires start <= |AllStreams|
    ensures Subseq(ToSync(catalog, start), AllStreams[start..])
    ensures forall s :: s in ToSync(catalog, start) <==>
      s in AllStreams[start..] && exists e :: e in catalog && IsSelected(e) && e.id == s.id
  {
    KeepOrdered(AllStreams[start..], SelectedIds(catalog));
  }

  /** A stream before the resume index is not synced in this run, selected
      or not. */
  lemma SkippedNeverSynced(catalog: seq<CatalogEntry>, start: nat, k: nat)
    requires k < start <= |AllStreams|
    ensures AllStreams[k].id !in Ids(ToSync(catalog, start))
  {
    StreamIdsDistinct();
  }

  /** A state whose marker names stream `k` resumes at `k`, and that run
      syncs stream `k` first when it is still selected. */
  lemma ResumeAt(st: State, catalog: seq<CatalogEntry>, k: nat)
    requires k < |AllStreams| && Marker(st) == Str(AllStreams[k].id)
    ensures StartIndex(st) == Ok(k)
    ensures AllStreams[k].id in SelectedIds(catalog) ==>
      |ToSync(catalog, k)| > 0 && ToSync(catalog, k)[0] == AllStreams[k]
  {
    StreamIdsDistinct();
    assert StreamIds[k] == AllStreams[k].id;
    assert AllStreams[k..][0] == AllStreams[k];
  }

  // ---------------------------------------------------------------------
  // What a run writes

  /** The streams whose schema was written, in order. */
  function Schemas(log: seq<Event>): seq<string> {
    if log == [] then []
    else Schemas(log[..|log| - 1]) + (if Last(log).SchemaOut? then [Last(log).stream] else [])
  }

  lemma {:induction false} SchemasOwned(log: seq<Event>, from: nat, id: string, m: Value)
    requires from <= |log| && Owned(log, from, id, m)
    ensures Schemas(log) == Schemas(log[..from])
    decreases |log|
  {
    if |log| > from {
      var init := log[..|log| - 1];
      assert init[..from] == log[..from];
      assert OwnedBy(log[|log| - 1], id, m);
      SchemasOwned(init, from, id, m);
    } else {
      assert log[..from] == log;
    }
  }

  /** Every records message written from `from` on comes after a snapshot
      that names its stream as `currently_syncing`: an interruption at that
      point resumes with the stream that was writing. */
  ghost predicate Attributed(log: seq<Event>, from: nat) {
    forall i :: from <= i < |log| && log[i].RecordsOut? ==>
      LastState(log[..i]).Some? && Marker(LastState(log[..i]).value) == Str(log[i].stream)
  }

  /** Every schema message written from `from` on is followed at once by a
      snapshot naming its stream. */
  ghost predicate Announced(log: seq<Event>, from: nat) {
    forall i :: from <= i < |log| && log[i].SchemaOut? ==>
      i + 1 < |log| && log[i + 1].StateOut? && Marker(log[i + 1].state) == Str(log[i].stream)
  }

  lemma OwnedAttributed(log: seq<Event>, from: nat, id: string)
    requires from <= |log| && Owned(log, from, id, Str(id))
    requires LastState(log[..from]).Some? && Marker(LastState(log[..from]).value) == Str(id)
    ensures Attributed(log, from) && Announced(log, from)
  {
    forall i | from <= i < |log| && log[i].RecordsOut?
      ensures LastState(log[..i]).Some? && Marker(LastState(log[..i]).value) == Str(log[i].stream)
    {
      var pre := log[..i];
      assert pre[..from] == log[..from];
      assert OwnedBy(log[i], id, Str(id));
      LastStateMarker(pre, from, Str(id));
    }
    forall i | from <= i < |log| ensures !log[i].SchemaOut? {
      assert OwnedBy(log[i], id, Str(id));
    }
  }

  /** A run's account of itself after `done` of the streams of `plan`
      (`err` is `None` once all have finished). */
  ghost predicate Ran(t: Tap, t': Tap, err: Option<Error>, done: nat, plan: seq<Stream>) {
    && t.log <= t'.log
    && Attributed(t'.log, |t.log|)
    && Announced(t'.log, |t.log|)
    && (forall x :: x !in Ids(plan) ==> Emitted(t'.log, x) == Emitted(t.log, x))
    && (err.None? ==>
          && done == |plan|
          && Schemas(t'.log) == Schemas(t.log) + Ids(plan)
          && Marker(t'.state) == Null
          && |t'.log| > 0 && Last(t'.log) == StateOut(t'.state))
    && (err.Some? ==>
          && done < |plan|
          && Schemas(t'.log) == Schemas(t.log) + Ids(plan[..done + 1])
          && LastState(t'.log).Some? && Marker(LastState(t'.log).value) == Str(plan[done].id))
  }

  // ---------------------------------------------------------------------
  // The loop

  /** Only the chats stream reads `chat_search_interval_days`, and it needs a
      positive value: with 0 its window loop never advances, and with a
      negative one it walks backwards until the datetime arithmetic
      overflows. */
  predicate Runnable(cfg: Config, s: Stream) {
    s.kind == ChatsKind ==> Chats.IntervalDays(cfg) > 0
  }

  /** `stream.sync(ctx)`: the strategy for the stream's kind. */
  method SyncOne(t: Tap, up: Upstream, cfg: Config, s: Stream, now: int)
    returns (t': Tap, up': Upstream, err: Option<Error>)
    requires s in AllStreams && Runnable(cfg, s)
    ensures StreamStep(t, t', s.id)
  {
    up' := up;
    match s.kind
    case AccountKind =>
      t', err := SingleFetch.SyncAccount(t, up);
    case AgentsKind =>
      t', err := SyncOffset(t, up, cfg, Agents);
    case BansKind =>
      t', err := SyncOffset(t, up, cfg, Bans);
    case ChatsKind =>
      ghost var chats, offline;
      t', up', err, chats, offline := Chats.SyncChats(t, up, cfg, now);
    case EverythingKind =>
      t', err := SingleFetch.SyncEverything(t, up, s.id);
  }

  /** One turn of the loop: mark the stream as `currently_syncing`, write its
      schema and a snapshot, then run its sync. */
  method SyncStream(t: Tap, up: Upstream, cfg: Config, s: Stream, now: int)
    returns (t': Tap, up': Upstream, err: Option<Error>)
    requires s in AllStreams && Runnable(cfg, s)
    ensures t.log <= t'.log && Marker(t'.state) == Str(s.id)
    ensures Schemas(t'.log) == Schemas(t.log) + [s.id]
    ensures forall x :: x != s.id ==> Emitted(t'.log, x) == Emitted(t.log, x)
    ensures Attributed(t'.log, |t.log|) && Announced(t'.log, |t.log|)
    ensures LastState(t'.log).Some? && Marker(LastState(t'.log).value) == Str(s.id)
  {
    var st := t.state["currently_syncing" := Str(s.id)];
    var log1 := t.log + [SchemaOut(s.id), StateOut(st)];
    assert log1[..|log1| - 1] == t.log + [SchemaOut(s.id)];
    assert log1[..|log1| - 1][..|t.log|] == t.log;
    assert log1[..|log1|] == log1;
    t', up', err := SyncOne(Tap(st, log1), up, cfg, s, now);
    OwnedAttributed(t'.log, |log1|, s.id);
    SchemasOwned(t'.log, |log1|, s.id, Str(s.id));
    assert t'.log[..|log1|] == log1;
    forall x | x != s.id ensures Emitted(t'.log, x) == Emitted(t.log, x) {
      EmittedOwned(t'.log, |log1|, s.id, Str(s.id), x);
      assert Emitted(log1, x) == Emitted(log1[..|log1| - 1], x) == Emitted(t.log, x);
    }
    LastStateMarker(t'.log, |log1|, Str(s.id));
  }

  /** The loop invariant: the first `i` streams of `plan` have finished. */
  ghost predicate Partial(t: Tap, t': Tap, plan: seq<Stream>, i: nat) {
    && i <= |plan| && t.log <= t'.log
    && Attributed(t'.log, |t.log|) && Announced(t'.log, |t.log|)
    && Schemas(t'.log) == Schemas(t.log) + Ids(plan[..i])
    && forall x :: x !in Ids(plan[..i]) ==> Emitted(t'.log, x) == Emitted(t.log, x)
  }

  lemma JoinMarks(t: Tap, t1: Tap, t2: Tap)
    requires t.log <= t1.log <= t2.log
    requires Attributed(t1.log, |t.log|) && Announced(t1.log, |t.log|)
    requires Attributed(t2.log, |t1.log|) && Announced(t2.log, |t1.log|)
    ensures Attributed(t2.log, |t.log|) && Announced(t2.log, |t.log|)
  {
    forall j | |t.log| <= j < |t1.log| ensures t2.log[..j] == t1.log[..j] && t2.log[j] == t1.log[j] {
    }
  }

  /** A stream that has run to its end (`ok`) or stopped extends the
      invariant by one stream. */
  lemma PartialStep(t: Tap, t1: Tap, t2: Tap, plan: seq<Stream>, i: nat)
    requires Partial(t, t1, plan, i) && i < |plan| && t1.log <= t2.log
    requires Attributed(t2.log, |t1.log|) && Announced(t2.log, |t1.log|)
    requires Schemas(t2.log) == Schemas(t1.log) + [plan[i].id]
    requires forall x :: x != plan[i].id ==> Emitted(t2.log, x) == Emitted(t1.log, x)
    ensures Partial(t, t2, plan, i + 1)
  {
    JoinMarks(t, t1, t2);
    assert plan[..i + 1][..i] == plan[..i];
    assert Ids(plan[..i + 1]) == Ids(plan[..i]) + [plan[i].id];
  }

  /** A run that stops in stream `i`. */
  lemma PartialFail(t: Tap, t2: Tap, plan: seq<Stream>, i: nat, e: Error)
    requires Partial(t, t2, plan, i + 1)
    requires LastState(t2.log).Some? && Marker(LastState(t2.log).value) == Str(plan[i].id)
    ensures Ran(t, t2, Some(e), i, plan)
  {
    forall x | x !in Ids(plan) ensures x !in Ids(plan[..i + 1]) {
    }
  }

  /** `currently_syncing = None` and the final `write_state()`. */
  method Finish(t: Tap, t1: Tap, plan: seq<Stream>) returns (t': Tap)
    requires Partial(t, t1, plan, |plan|)
    ensures Ran(t, t', None, |plan|, plan)
    ensures t'.state == t1.state["currently_syncing" := Null]
  {
    assert plan[..|plan|] == plan;
    var final := t1.state["currently_syncing" := Null];
    var log := t1.log + [StateOut(final)];
    assert log[..|log| - 1] == t1.log;
    JoinMarks(t, t1, Tap(final, log));
    t' := Tap(final, log);
  }

  /** The `for stream in streams` loop and the final clearing of the marker. */
  method RunPlan(t: Tap, up: Upstream, cfg: Config, plan: seq<Stream>, now: int)
    returns (t': Tap, up': Upstream, err: Option<Error>, ghost done: nat)
    requires forall s :: s in plan ==> s in AllStreams && Runnable(cfg, s)
    ensures t.log <= t'.log
    ensures err.None? ==> Marker(t'.state) == Null && Schemas(t'.log) == Schemas(t.log) + Ids(plan)
    ensures Ran(t, t', err, done, plan)
  {
    t', up', err, done := t, up, None, 0;
    var i := 0;
    while i < |plan|
      invariant Partial(t, t', plan, i)
    {
      var t2, up2, e := SyncStream(t', up', cfg, plan[i], now);
      PartialStep(t, t', t2, plan, i);
      if e.Some? {
        PartialFail(t, t2, plan, i, e.value);
        return t2, up2, e, i;
      }
      t', up', i := t2, up2, i + 1;
    }
    t' := Finish(t, t', plan);
    done := i;
  }

  /** `sync`: resume from the marked stream, sync the selected streams in
      order, then clear the marker. A marker naming no stream stops the run
      before anything is written. */
  method Sync(t: Tap, up: Upstream, cfg: Config, catalog: seq<CatalogEntry>, now: int)
    returns (t': Tap, up': Upstream, err: Option<Error>, ghost done: nat)
    requires StartIndex(t.state).Ok? ==>
      forall s :: s in ToSync(catalog, StartIndex(t.state).value) ==> Runnable(cfg, s)
    ensures StartIndex(t.state).Err? ==> err == Some(StartIndex(t.state).error) && t' == t
    ensures StartIndex(t.state).Ok? ==> Ran(t, t', err, done, ToSync(catalog, StartIndex(t.state).value))
    ensures err.Some? && StartIndex(t.state).Ok? ==>
      && LastState(t'.log).Some? && StartIndex(LastState(t'.log).value).Ok?
      && var k := StartIndex(LastState(t'.log).value).value;
      && k < |AllStreams| && Marker(LastState(t'.log).value) == Str(AllStreams[k].id)
      && ToSync(catalog, k) != [] && ToSync(catalog, k)[0] == AllStreams[k]
  {
    var start := StartIndex(t.state);
    if start.Err? {
      return t, up, Some(start.error), 0;
    }
    var plan := ToSync(catalog, start.value);
    assert forall s :: s in plan ==> s in AllStreams;
    t', up', err, done := RunPlan(t, up, cfg, plan, now);
    if err.Some? {
      ResumeAfterFailure(t'.log, done, catalog, start.value);
    }
  }

  /** A run that stops in a stream leaves a last snapshot from which the next
      run resumes at that same stream. The requires are what `Ran` promises
      when `err` is set: `done` is in the plan and the last snapshot's marker
      names `plan[done]`. */
  lemma ResumeAfterFailure(log: seq<Event>, done: nat, catalog: seq<CatalogEntry>, start: nat)
    requires start <= |AllStreams| && done < |ToSync(catalog, start)|
    requires LastState(log).Some? && Marker(LastState(log).value) == Str(ToSync(catalog, start)[done].id)
    ensures var st := LastState(log).value; var failed := ToSync(catalog, start)[done];
      && StartIndex(st).Ok? && StartIndex(st).value < |AllStreams|
      && AllStreams[StartIndex(st).value] == failed
      && ToSync(catalog, StartIndex(st).value) != [] && ToSync(catalog, StartIndex(st).value)[0] == failed
  {
    var plan := ToSync(catalog, start);
    var failed := plan[done];
    assert failed in plan;
    var k :| start <= k < |AllStreams| && AllStreams[k] == failed;
    assert failed.id in SelectedIds(catalog);
    ResumeAt(LastState(log).value, catalog, k);
  }
}

=== FILE: upstream.dfy ===
/** The API as the connector sees it, replaced by an abstract collaborator.
    The since_id endpoints serve a fixed dataset: the records with
    `id >= since_id`, at most `limit` of them, in dataset order. The chat
    search endpoint answers from a scripted sequence of replies, one per
    request. Bulk fetch looks ids up among the chats that still exist, and
    fails on its own when it asks for a chat listed in `bulkFails`. Every
    request to a stream listed in `broken` fails with that HTTP status. */
module Upstream {
  import opened Values

  datatype SearchReply = SearchReply(results: seq<int>, nextUrl: Value)

  /** The bans endpoint answers with two lists, either of which may be
      missing from the body. */
  datatype BansReply = BansReply(visitor: Option<seq<Record>>, ipAddress: Option<seq<Record>>)

  datatype Upstream = Upstream(
    agents: seq<Record>,
    visitorBans: seq<Record>,
    ipBans: seq<Record>,
    account: Record,
    lists: map<string, seq<Record>>,
    searches: seq<Result<SearchReply>>,
    docs: map<int, Record>,
    bulkFails: map<int, int>,
    broken: map<string, int>)

  /** The records with `id >= since`, in order. */
  function Above(data: seq<Record>, since: int): (r: seq<Record>)
    ensures |r| <= |data|
  {
    if data == [] then []
    else (if data[0].id >= since then [data[0]] else []) + Above(data[1..], since)
  }

  /** What is served from `since` on is exactly the dataset's records with
      `id >= since`. */
  lemma {:induction false} AboveMembers(data: seq<Record>, since: int)
    ensures forall x :: x in Above(data, since) <==> x in data && x.id >= since
  {
    if data != [] {
      AboveMembers(data[1..], since);
      assert data == [data[0]] + data[1..];
    }
  }

  /** The first `limit` elements (none when `limit <= 0`). */
  function Take<T>(s: seq<T>, limit: int): seq<T> {
    if limit <= 0 then [] else s[..Min(limit, |s|)]
  }

  /** The first `limit` records with `id >= since`, in dataset order (none
      when `limit <= 0`): what one since_id request returns. */
  function FirstAbove(data: seq<Record>, since: int, limit: int): seq<Record> {
    if data == [] || limit <= 0 then []
    else if data[0].id >= since then [data[0]] + FirstAbove(data[1..], since, limit - 1)
    else FirstAbove(data[1..], since, limit)
  }

  /** A request returns the first `limit` of the records `since` selects. */
  lemma {:induction false} FirstAboveIsTake(data: seq<Record>, since: int, limit: int)
    ensures FirstAbove(data, since, limit) == Take(Above(data, since), limit)
  {
    if data != [] && limit > 0 {
      var rest := Above(data[1..], since);
      FirstAboveIsTake(data[1..], since, limit);
      FirstAboveIsTake(data[1..], since, limit - 1);
      if data[0].id >= since {
        assert Above(data, since) == [data[0]] + rest;
        if limit > 1 {
          assert ([data[0]] + rest)[..Min(limit, 1 + |rest|)] == [data[0]] + rest[..Min(limit - 1, |rest|)];
        } else {
          assert ([data[0]] + rest)[..Min(limit, 1 + |rest|)] == [data[0]];
        }
      } else {
        assert Above(data, since) == rest;
      }
    }
  }

  /** A request returns only records of the dataset at or above `since`. */
  lemma {:induction false} FirstAboveMembers(data: seq<Record>, since: int, limit: int)
    ensures forall x :: x in FirstAbove(data, since, limit) ==> x in data && x.id >= since
  {
    if data != [] && limit > 0 {
      FirstAboveMembers(data[1..], since, limit);
      FirstAboveMembers(data[1..], since, limit - 1);
    }
  }

  /** Raising `since` never admits more records. */
  lemma {:induction false} AboveMonotone(data: seq<Record>, s: int, s': int)
    requires s <= s'
    ensures |Above(data, s')| <= |Above(data, s)|
  {
    if data != [] {
      AboveMonotone(data[1..], s, s');
    }
  }

  /** Raising `since` past a record's id strictly shrinks what is served. */
  lemma {:induction false} AboveShrinks(data: seq<Record>, s: int, s': int, x: Record)
    requires x in data && s <= x.id < s'
    ensures |Above(data, s')| < |Above(data, s)|
  {
    if data[0] == x {
      AboveMonotone(data[1..], s, s');
    } else {
      AboveShrinks(data[1..], s, s', x);
    }
  }

  /** Ids strictly increase along the dataset. */
  predicate Ascending(data: seq<Record>)
    decreases |data|
  {
    |data| < 2 || (data[0].id < data[1].id && Ascending(data[1..]))
  }

  /** Any two positions of an ascending dataset are ordered by id. */
  lemma {:induction false} AscendingPairs(data: seq<Record>, i: int, j: int)
    requires Ascending(data) && 0 <= i < j < |data|
    ensures data[i].id < data[j].id
    decreases j
  {
    if i == 0 && j == 1 {
    } else if i == 0 {
      AscendingPairs(data[1..], 0, j - 1);
    } else {
      AscendingPairs(data[1..], i - 1, j - 1);
    }
  }

  /** Position of the first record with `id >= since`. */
  function FirstAtLeast(data: seq<Record>, since: int): (k: nat)
    ensures k <= |data|
    ensures forall i :: 0 <= i < k ==> data[i].id < since
    ensures k < |data| ==> data[k].id >= since
  {
    if data == [] || data[0].id >= since then 0 else 1 + FirstAtLeast(data[1..], since)
  }

  /** In an ascending dataset, what is served from `since` on is a suffix. */
  lemma {:induction false} AboveIsSuffix(data: seq<Record>, since: int)
    requires Ascending(data)
    ensures Above(data, since) == data[FirstAtLeast(data, since)..]
  {
    if data != [] {
      var tail := data[1..];
      AboveIsSuffix(tail, since);
      if data[0].id >= since {
        if |data| > 1 {
          assert FirstAtLeast(data[1..], since) == 0;
        }
        assert data[1..][FirstAtLeast(data[1..], since)..] == data[1..];
      } else {
        assert data[FirstAtLeast(data, since)..] == data[1..][FirstAtLeast(data[1..], since)..];
      }
    }
  }

  /** After serving `data[k..j]`, asking from the last id + 1 resumes at `j`. */
  lemma NextSince(data: seq<Record>, k: nat, j: nat)
    requires Ascending(data)
    requires k < j <= |data|
    ensures FirstAtLeast(data, data[j - 1].id + 1) == j
  {
    forall i | 0 <= i < j - 1 ensures data[i].id < data[j - 1].id {
      AscendingPairs(data, i, j - 1);
    }
    if j < |data| {
      AscendingPairs(data, j - 1, j);
    }
    FirstAtLeastIs(data, data[j - 1].id + 1, j);
  }

  lemma {:induction false} FirstAtLeastIs(data: seq<Record>, since: int, j: nat)
    requires j <= |data|
    requires forall i :: 0 <= i < j ==> data[i].id < since
    requires j < |data| ==> data[j].id >= since
    ensures FirstAtLeast(data, since) == j
  {
    if j > 0 {
      FirstAtLeastIs(data[1..], since, j - 1);
    }
  }

  /** A suffix of an ascending dataset is ascending. */
  lemma {:induction false} AscendingSuffix(data: seq<Record>, k: nat)
    requires Ascending(data) && k <= |data|
    ensures Ascending(data[k..])
    decreases k
  {
    if k > 0 {
      AscendingSuffix(data[1..], k - 1);
      assert data[1..][k - 1..] == data[k..];
    }
  }

  /** Filtering twice keeps the stricter bound. */
  lemma {:induction false} AboveAbove(data: seq<Record>, s: int, s': int)
    requires s <= s'
    ensures Above(Above(data, s), s') == Above(data, s')
  {
    if data != [] {
      AboveAbove(data[1..], s, s');
      var head := if data[0].id >= s then [data[0]] else [];
      AboveConcat(head, Above(data[1..], s), s');
    }
  }

  lemma {:induction false} AboveConcat(a: seq<Record>, b: seq<Record>, s: int)
    ensures Above(a + b, s) == Above(a, s) + Above(b, s)
  {
    if a != [] {
      assert (a + b)[1..] == a[1..] + b;
      AboveConcat(a[1..], b, s);
    } else {
      assert a + b == b;
    }
  }

  /** On an ascending dataset, asking again from the id after position
      `m - 1` of what `since` served yields exactly what follows position
      `m`: paging by last id + 1 neither skips nor repeats a record. */
  lemma AboveAfter(data: seq<Record>, since: int, m: nat)
    requires Ascending(data)
    requires 0 < m <= |Above(data, since)|
    ensures var a := Above(data, since);
      Above(data, a[m - 1].id + 1) == a[m..]
  {
    var a := Above(data, since);
    AboveAscending(data, since);
    ServedAtLeast(data, since, m - 1);
    AboveAbove(data, since, a[m - 1].id + 1);
    AscendingAfter(a, m);
  }

  lemma ServedAtLeast(data: seq<Record>, since: int, i: nat)
    requires i < |Above(data, since)|
    ensures Above(data, since)[i].id >= since
  {
    AboveMembers(data, since);
    assert Above(data, since)[i] in Above(data, since);
  }

  lemma AscendingAfter(a: seq<Record>, m: nat)
    requires Ascending(a) && 0 < m <= |a|
    ensures Above(a, a[m - 1].id + 1) == a[m..]
  {
    AboveIsSuffix(a, a[m - 1].id + 1);
    NextSince(a, m - 1, m);
  }

  /** What `since` serves from an ascending dataset is ascending. */
  lemma AboveAscending(data: seq<Record>, since: int)
    requires Ascending(data)
    ensures Ascending(Above(data, since))
  {
    AboveIsSuffix(data, since);
    AscendingSuffix(data, FirstAtLeast(data, since));
  }

  /** `GET /agents?since_id=..&limit=..`. A since_id that is not a number is
      answered with 400. */
  function AgentsPage(up: Upstream, since: Value, limit: int): (r: Result<seq<Record>>)
    ensures r.Ok? <==> "agents" !in up.broken && since.Int?
  {
    if "agents" in up.broken then Err(HttpError(up.broken["agents"]))
    else if !since.Int? then Err(HttpError(400))
    else Ok(FirstAbove(up.agents, since.i, limit))
  }

  /** `GET /bans?since_id=..&limit=..`: both lists are present. */
  function BansPage(up: Upstream, since: Value, limit: int): (r: Result<BansReply>)
    ensures r.Ok? <==> "bans" !in up.broken && since.Int?
    ensures r.Ok? ==> r.value.visitor.Some? && r.value.ipAddress.Some?
  {
    if "bans" in up.broken then Err(HttpError(up.broken["bans"]))
    else if !since.Int? then Err(HttpError(400))
    else
      Ok(BansReply(Some(FirstAbove(up.visitorBans, since.i, limit)),
                   Some(FirstAbove(up.ipBans, since.i, limit))))
  }

  /** `GET /<stream>` for the list endpoints. */
  function FetchList(up: Upstream, stream: string): Result<seq<Record>> {
    if stream in up.broken then Err(HttpError(up.broken[stream]))
    else Ok(if stream in up.lists then up.lists[stream] else [])
  }

  /** `GET /account`. */
  function FetchAccount(up: Upstream): Result<Record> {
    if "account" in up.broken then Err(HttpError(up.broken["account"]))
    else Ok(up.account)
  }

  /** The next chat search reply (for a fresh search or a stored next_url
      alike). Once the script is used up the endpoint has nothing more: no
      results and no next page. */
  function NextSearch(up: Upstream): (Result<SearchReply>, Upstream) {
    if "chats" in up.broken then (Err(HttpError(up.broken["chats"])), up)
    else if up.searches == [] then (Ok(SearchReply([], Null)), up)
    else (up.searches[0], up.(searches := up.searches[1..]))
  }

  /** The status of the first id in `ids` whose bulk fetch fails. */
  function BulkFailure(fails: map<int, int>, ids: seq<int>): (r: Option<int>)
    ensures r.None? <==> forall i :: 0 <= i < |ids| ==> ids[i] !in fails
    ensures r.Some? ==> exists i :: 0 <= i < |ids| && ids[i] in fails && fails[ids[i]] == r.value
  {
    if ids == [] then None
    else if ids[0] in fails then Some(fails[ids[0]])
    else BulkFailure(fails, ids[1..])
  }

  /** `GET /chats?ids=..`: the chats that still exist, in request order. The
      request fails independently of the searches before it. */
  function BulkDocs(up: Upstream, ids: seq<int>): (r: Result<seq<Record>>)
    ensures r.Ok? <==> "chats" !in up.broken && BulkFailure(up.bulkFails, ids).None?
    ensures r.Ok? ==> |r.value| <= |ids| && forall x :: x in r.value ==> x in up.docs.Values
  {
    if "chats" in up.broken then Err(HttpError(up.broken["chats"]))
    else match BulkFailure(up.bulkFails, ids)
      case Some(status) => Err(HttpError(status))
      case None => Ok(Found(up.docs, ids))
  }

  function Found(docs: map<int, Record>, ids: seq<int>): (r: seq<Record>)
    ensures |r| <= |ids| && forall x :: x in r ==> x in docs.Values
  {
    if ids == [] then []
    else (if ids[0] in docs then [docs[ids[0]]] else []) + Found(docs, ids[1..])
  }
}

=== FILE: values.dfy ===
/** Shared value types of the connector: the JSON-like values that live in the
    state document, the errors a run can stop with, and upstream records. */
module Values {

  datatype Option<+T> = None | Some(value: T) {
    function GetOr(default: T): T {
      match this
      case Some(v) => v
      case None => default
    }
  }

  /** The exceptions that end a run. `HttpError` carries the status code of a
      non-retryable response; the others are the Python runtime errors the
      connector's code can raise on malformed state or responses. */
  datatype Error =
    | HttpError(status: int)
    | TypeError
    | KeyError
    | IndexError
    | ValueError
    | AttributeError

  datatype Result<+T> = Ok(value: T) | Err(error: Error)

  /** A JSON value as stored in the state document. `Time(t)` is an ISO-8601
      timestamp string denoting instant `t` (seconds); there is deliberately no
      constructor for a raw datetime object, so a stored value is always
      serializable. */
  datatype Value =
    | Null
    | Int(i: int)
    | Str(s: string)
    | Time(t: int)
    | Obj(fields: map<string, Value>)

  /** Python truthiness: `None`, `0`, `""` and `{}` are falsy. An ISO
      timestamp is a non-empty string and hence truthy. */
  predicate Truthy(v: Value) {
    match v
    case Null => false
    case Int(i) => i != 0
    case Str(s) => s != []
    case Time(_) => true
    case Obj(m) => m != map[]
  }

  const EmptyObj: Value := Obj(map[])

  /** An upstream record: its `id` and its timestamp-valued fields (all other
      fields pass through the connector untouched and are not modelled). */
  datatype Record = Record(id: int, stamps: map<string, int>)

  function Max(a: int, b: int): int {
    if a < b then b else a
  }

  function Min(a: int, b: int): int {
    if a < b then a else b
  }

  function Last<T>(s: seq<T>): T
    requires |s| > 0
  {
    s[|s| - 1]
  }

  lemma ConcatAssoc<T>(a: seq<T>, b: seq<T>, c: seq<T>)
    ensures (a + b) + c == a + (b + c)
  {
  }

  /** `a` is `b` with some elements deleted, the rest in their order. */
  predicate Subseq<T(==)>(a: seq<T>, b: seq<T>) {
    if a == [] then true
    else if b == [] then false
    else if a[0] == b[0] then Subseq(a[1..], b[1..])
    else Subseq(a, b[1..])
  }

  lemma {:induction false} SubseqSkip<T>(a: seq<T>, b: seq<T>)
    requires b != [] && Subseq(a, b[1..])
    ensures Subseq(a, b)
    decreases |b|, |a|
  {
    if a != [] && a[0] == b[0] {
      SubseqHead(a, b[1..]);
    }
  }

  lemma {:induction false} SubseqHead<T>(a: seq<T>, b: seq<T>)
    requires a != [] && Subseq(a, b)
    ensures Subseq(a[1..], b)
    decreases |b|, |a|
  {
    if a[0] == b[0] {
      SubseqSkip(a[1..], b);
    } else {
      SubseqHead(a, b[1..]);
      SubseqSkip(a[1..], b);
    }
  }

  lemma {:induction false} SubseqRefl<T>(a: seq<T>)
    ensures Subseq(a, a)
  {
    if a != [] {
      SubseqRefl(a[1..]);
    }
  }

  // ---------------------------------------------------------------------
  // Python's `int()` on a configuration value

  predicate IsDigit(c: char) {
    '0' <= c <= '9'
  }

  /** A non-empty run of decimal digits. */
  predicate Digits(s: string) {
    |s| > 0 && forall i :: 0 <= i < |s| ==> IsDigit(s[i])
  }

  /** The number a run of digits spells, most significant digit first. */
  function DigitsValue(s: string): nat
    requires forall i :: 0 <= i < |s| ==> IsDigit(s[i])
  {
    if s == [] then 0
    else
      assert IsDigit(s[|s| - 1]);
      DigitsValue(s[..|s| - 1]) * 10 + (s[|s| - 1] as int - '0' as int)
  }

  /** `int(v)`: an integer is itself; a string converts when it is a decimal
      numeral with an optional minus sign and raises ValueError otherwise (an
      ISO timestamp is such a string); `None` and a dict raise TypeError. */
  function IntOf(v: Value): (r: Result<int>)
    ensures v.Int? ==> r == Ok(v.i)
    ensures v.Str? && Digits(v.s) ==> r == Ok(DigitsValue(v.s))
    ensures v.Str? && |v.s| > 1 && v.s[0] == '-' && Digits(v.s[1..]) ==>
      r == Ok(0 - DigitsValue(v.s[1..]) as int)
    ensures v.Str? && !Digits(v.s) && !(|v.s| > 1 && v.s[0] == '-' && Digits(v.s[1..])) ==> r == Err(ValueError)
    ensures v.Time? ==> r == Err(ValueError)
    ensures v.Null? || v.Obj? ==> r == Err(TypeError)
  {
    match v
    case Int(i) => Ok(i)
    case Str(s) =>
      if Digits(s) then Ok(DigitsValue(s))
      else if |s| > 1 && s[0] == '-' && Digits(s[1..]) then Ok(0 - DigitsValue(s[1..]) as int)
      else Err(ValueError)
    case Time(_) => Err(ValueError)
    case _ => Err(TypeError)
  }

  /** The decimal rendering of a natural number, as `str(n)` gives it. */
  function Decimal(n: nat): (r: string)
    ensures Digits(r)
  {
    var d := ['0' + (n % 10) as char];
    if n < 10 then d else Decimal(n / 10) + d
  }

  lemma {:induction false} DigitsValueDecimal(n: nat)
    ensures DigitsValue(Decimal(n)) == n
  {
    var d := ['0' + (n % 10) as char];
    if n >= 10 {
      DigitsValueDecimal(n / 10);
      var r := Decimal(n / 10) + d;
      assert r[..|r| - 1] == Decimal(n / 10);
    }
  }

  /** `int(str(n)) == n` for every integer, negative ones included. */
  lemma IntOfDecimal(n: int)
    ensures n >= 0 ==> IntOf(Str(Decimal(n))) == Ok(n)
    ensures n < 0 ==> IntOf(Str("-" + Decimal(-n))) == Ok(n)
  {
    if n >= 0 {
      DigitsValueDecimal(n);
    } else {
      var s := "-" + Decimal(-n);
      assert s[1..] == Decimal(-n);
      assert !Digits(s) by { assert !IsDigit(s[0]); }
      DigitsValueDecimal(-n);
    }
  }
}
